=== FILE: README.md ===
# agitiser-rs core, modelled in Dafny

agitiser is a command-line notifier. A coding agent (Claude Code, Codex or a
generic agent) hands it a JSON payload when it finishes something. agitiser
turns that payload into one `NormalizedEvent` and speaks a sentence about it.
The same binary also installs and removes its own hook in the agents'
configuration files.

This project models that core as pure functions over immutable data and
proves properties about them:

- `wrappers.dfy`, `text.dfy`, `json.dfy`: `Option`; Rust's `str::trim`,
  `contains`, `to_ascii_lowercase` and `trim_end_matches`; a serde_json
  `Value` tree with its safe accessors.
- `agents.dfy`, `state.dfy`: `Agent` with its display name, `SetupAgent`,
  and the `LocalState` record family.
- `claude.dfy` (module `Claude`): the managed `Stop` hook in Claude's
  `settings.json`. Covers `managed_command`, `shell_quote`,
  `is_managed_command`, `has_managed_hook`, the `ensure_*` helpers,
  `apply_setup` and `apply_remove`.
- `codex.dfy` (module `Codex`): the top-level `notify` key of Codex's
  `config.toml`. Covers `managed_notify_command`, `is_managed_notify`,
  `extract_notify`, `set_notify`, `remove_notify`, `apply_setup` and
  `apply_remove`. A foreign `notify` command is captured in the local state
  and restored on removal.
- `event.dfy` (module `Event`): `normalize` and its three recognisers,
  `is_terminal_event`, `project_name_from_cwd` (with `Path::file_name`
  spelled out on `/`-separated components), and `announcement_message`.
- `template.dfy` (module `Template`): template resolution, the render
  context, rendering with fallback, and template validation. The
  Handlebars engine is a parameter `Engine(register, render)`. `register`
  says whether a template compiles; `render` gives the output or a render
  error.
- `commands.dfy` (module `Commands`): `dedup_agents`, as a loop method
  checked against a recursive reference definition.

Both `apply_*` functions return the new document and the `changed` flag,
which the source returns through `&mut`. The Codex pair also returns the
new local state.

Points where the code does something a reader might not expect, modelled
as the code does it:

- `apply_remove` for Claude deletes an empty `Stop` array, and then an
  emptied `hooks` object, and returns `false` even though it changed the
  document. The comment and the unit test at
  `src/integrations/claude.rs:320-331` expect exactly this.
  `RemoveReportsChange` and `RemoveCleansEmptyStop` state it.
- The generic recogniser copies a string `project` field verbatim when
  there is no string `cwd`. A payload with `"project": ""` therefore gets
  an empty project name, although `project_name_from_cwd` never returns an
  empty name. `GenericEmptyProjectScenario` states this.
- The default sentence is `"<agent> finished a <kind> in <project>"`, as
  `announcement_message` builds it (`src/event.rs:23-30`). The fallback
  tests at `src/template.rs:137-159` expect
  `"Codex finished a task-end task in backend"`, with an extra word
  "task" that the code does not produce. The model follows the code.

## Model

| member | source | states |
|---|---|---|
| Agents.Agent.DisplayName | src/agent.rs:14-20 | The spoken name is never empty, and it is "Agent" exactly for the generic agent |
| Claude.ShellQuote | src/integrations/claude.rs:277-279 | The result is wrapped in single quotes; a value without quotes is wrapped unchanged |
| Claude.ShellQuoteRoundTrip | src/integrations/claude.rs:277-279 | A POSIX shell reading the quoted word gets back exactly the original value, whatever quotes it contains |
| Claude.ManagedCommand | src/integrations/claude.rs:9-14 | The hook command runs the quoted executable with the notify variable set, and it is recognised as managed |
| Claude.EnsureRootObject | src/integrations/claude.rs:251-256 | An object root is kept; any other root becomes the empty object |
| Claude.EnsureObjectEntry | src/integrations/claude.rs:258-267 | An existing object entry is kept; a missing or non-object entry becomes the empty object |
| Claude.EnsureArrayEntry | src/integrations/claude.rs:269-275 | An existing array entry is kept; a missing or non-array entry becomes the empty array |
| Claude.DesiredEntry | src/integrations/claude.rs:100-111 | The appended entry holds exactly one hook, whose command is the desired one |
| Claude.RetainForSetupSpec | src/integrations/claude.rs:63-80 | Retaining keeps every unmanaged hook in order and at most one managed hook, which carries the desired command; it reports whether the desired command was seen |
| Claude.RetainKeepsFirstDesired | src/integrations/claude.rs:63-80 | The first occurrence of the desired command is the managed hook that survives |
| Claude.PruneEntries | src/integrations/claude.rs:88-98 | Pruning never lengthens the list, keeps it whole when every entry is kept, and leaves the flattened hooks and the entries without a hook list unchanged |
| Claude.PruneEntriesMembers | src/integrations/claude.rs:88-95 | An entry survives exactly when its hooks array is missing or non-empty |
| Claude.PruneEntriesConcat | src/integrations/claude.rs:88-95 | Pruning decides entry by entry and keeps the order: it splits over concatenation, and a single entry stays exactly when it is kept |
| Claude.SetupEntry | src/integrations/claude.rs:57-85 | On one entry: the other fields and the unmanaged hooks stay, the hooks array becomes the retained hooks, and a change is reported exactly when a hook was dropped |
| Claude.ScanForSetup | src/integrations/claude.rs:55-86 | Every entry keeps its place, its other fields and its unmanaged hooks, and an entry without a hooks array is untouched; each entry's hooks become the retain of its own hooks array, started from the "desired already seen" flag the earlier entries left, so no hook moves between entries; over the flattened hooks the pass acts as one retain; a change is reported exactly when a hook was dropped |
| Claude.SetupScanDetermined | src/integrations/claude.rs:55-86 | The setup pass's promise fixes every entry: two results that both keep it hold the same entries |
| Claude.ApplySetup | src/integrations/claude.rs:48-114 | Setup forces the root, `hooks` and `Stop` shapes, rewrites only `Stop`, and keeps every other key of the root and of `hooks` |
| Claude.SetupLeavesOneManagedHook | src/integrations/claude.rs:48-114 | For a managed command, after setup exactly one managed hook exists, and it runs the desired command |
| Claude.SetupKeepsUnmanagedHooks | src/integrations/claude.rs:63-80 | For a managed command, setup keeps the user's own Stop hooks, in order |
| Claude.SetupKeepsEntriesWithoutHooks | src/integrations/claude.rs:88-95 | Stop entries without a hook list survive setup unchanged |
| Claude.SetupReportsChange | src/integrations/claude.rs:48-114 | Setup reports a change exactly when the document changed |
| Claude.SetupIdempotent | src/integrations/claude.rs:287-295 | For a managed command, a second setup with the same command changes nothing and reports no change |
| Claude.IsManagedCommandIff | src/integrations/claude.rs:220-222 | A command is managed exactly when both markers occur in it, at any positions |
| Claude.HasManagedHookIff | src/integrations/claude.rs:196-218 | A managed hook is detected exactly when the flattened Stop hooks contain a managed command |
| Claude.RemoveEntry | src/integrations/claude.rs:153-169 | On one entry: the other fields stay, the hooks array keeps exactly its unmanaged hooks, and a change is reported exactly when a hook was dropped |
| Claude.ScanForRemove | src/integrations/claude.rs:152-170 | Every entry keeps its place and its other fields, and its hooks array keeps exactly its unmanaged hooks; a change is reported exactly when a hook was stripped |
| Claude.ApplyRemove | src/integrations/claude.rs:116-194 | Removal leaves a non-object or Stop-less document alone, never leaves an empty Stop array, and keeps every other root key |
| Claude.RemoveStripsManagedHooks | src/integrations/claude.rs:152-170 | After removal the Stop hooks are exactly the unmanaged ones, and no managed hook is detected |
| Claude.RemoveKeepsOtherEvents | src/integrations/claude.rs:184-191 | Hook events other than Stop are untouched by removal |
| Claude.RemoveCleansEmptyStop | src/integrations/claude.rs:119-135 | An empty Stop array is deleted, and an emptied `hooks` with it, but the call reports no change |
| Claude.RemoveReportsChange | src/integrations/claude.rs:116-194 | Removal reports a change exactly when the document changed, except in the empty-Stop cleanup |
| Claude.SetupThenRemoveRoundTrip | src/integrations/claude.rs:48-194 | For a managed command on a document without `hooks`, setup then remove gives the original document back and reports the removal |
| Codex.ManagedNotifyCommand | src/integrations/codex.rs:10-19 | The notify command starts with the executable, has six parts, and is recognised as managed |
| Codex.ManagedNotifyHoldsOwnArguments | src/integrations/codex.rs:94-97 | A notify command is managed exactly when it holds, as a multiset, the five argument tokens the setup command writes, in any order and whatever the executable; a managed command therefore has at least five tokens |
| Codex.ManagedNotifyIgnoresOrder | src/integrations/codex.rs:94-97 | Reordering a command's tokens does not change whether it is managed |
| Codex.StringsOfIff | src/integrations/codex.rs:124-131 | An array reads back as a list of strings exactly when it is the TOML form of that list |
| Codex.ExtractNotify | src/integrations/codex.rs:124-131 | A notify value is read only from an array of strings under `notify` |
| Codex.SetNotify | src/integrations/codex.rs:133-139 | After writing, `notify` reads back as the written command, and every other key is unchanged |
| Codex.RemoveNotify | src/integrations/codex.rs:141-143 | After removal `notify` is absent, and every other key is unchanged |
| Codex.ApplySetup | src/integrations/codex.rs:55-75 | Setup is a no-op exactly when notify already equals the desired command; otherwise notify becomes the desired command, and a foreign value is captured only into an empty slot |
| Codex.ApplyRemove | src/integrations/codex.rs:77-92 | Removal acts exactly when notify is managed: it restores the captured value or deletes the key, and clears the capture |
| Codex.SetupReportsChange | src/integrations/codex.rs:55-75 | Setup reports a change exactly when the document changed |
| Codex.SetupIdempotent | src/integrations/codex.rs:55-75 | A second setup is a no-op on both document and state |
| Codex.SetupNeverOverwritesCapture | src/integrations/codex.rs:63-66 | An already-captured original is never overwritten |
| Codex.MutatorsKeepCaptureForeign | src/integrations/codex.rs:55-92 | Neither mutator ever captures a managed command |
| Codex.SetupConfigures | src/integrations/codex.rs:44-53 | After setup with a managed command the document is configured, so a later remove acts |
| Codex.RemoveUnconfigures | src/integrations/codex.rs:44-53 | With a foreign capture or none, the document is no longer configured after removal |
| Codex.SetupThenRemoveRestores | src/integrations/codex.rs:55-92 | Setup then remove restores an absent or foreign-string-array notify, and the empty capture slot |
| Codex.SetupThenRemoveDropsUnreadableNotify | src/integrations/codex.rs:55-92 | A notify that is not a string array is overwritten without capture, so setup then remove deletes it |
| Codex.CaptureAndRestoreScenario | src/integrations/codex.rs:150-194 | The unit-test configuration is captured by setup and restored by remove |
| Event.FileName | src/event.rs:41-46 | The file name, when there is one, is a normal component: non-empty, not `.` or `..`, and without `/` |
| Event.FileNameOfChild | src/event.rs:41-46 | For `dir/name` with a normal last component, `Path::file_name` gives exactly that component, whatever `dir` is |
| Event.ProjectNameFromCwd | src/event.rs:32-47 | The project name is never empty; a missing or blank directory gives "unknown project"; otherwise it is a normal component or a prefix of the trimmed path |
| Event.ProjectNameIsLastComponent | src/event.rs:41-46 | For `dir/name` with a normal last component, the project name is that component |
| Event.ProjectNameIgnoresTrailingSlash | src/event.rs:38-39 | A trailing slash does not change the project name, unless the path is all slashes |
| Event.ProjectNameOfNothing | src/event.rs:33-36 | No directory, or a blank one, gives "unknown project" |
| Event.ProjectNameOfRoot | src/event.rs:251-258 | The root directory `/` is its own project name |
| Event.ProjectNameOfName | src/event.rs:32-47 | A bare component is its own project name, so the function is idempotent on such output |
| Event.ClaudeEventKind | src/event.rs:64-72 | A Claude kind is always "task-end" or "plan-end" |
| Event.ClaudeKindTable | src/event.rs:64-78 | "task-end" exactly for Stop; "plan-end" exactly for SubagentStop, or for PermissionRequest naming ExitPlanMode in `tool_name`, `tool` or `query` |
| Event.CodexEventKind | src/event.rs:96-102 | A Codex kind is always "task-end" or "plan-end" |
| Event.CodexKindTable | src/event.rs:96-102 | Only the exact types agent-turn-complete and agent-plan-complete are events, mapped to task-end and plan-end |
| Event.FirstPresent | src/event.rs:107-113 | The value found is under the first listed key that is present, and it is absent exactly when no listed key is present |
| Event.ExitPlanModeRequestIff | src/event.rs:74-78 | A request leaves plan mode exactly when `tool_name`, `tool` or `query` holds the string ExitPlanMode |
| Event.NormalizeClaude | src/event.rs:49-62 | A Claude event exists exactly for an object whose hook name maps to a kind; it carries that kind, the string `cwd`, the project named from it, and the payload |
| Event.NormalizeCodex | src/event.rs:80-94 | A Codex event exists exactly for an object whose string `type` maps to a kind; it carries that kind, the string `cwd`, the project named from it, and the payload |
| Event.NormalizeGeneric | src/event.rs:104-137 | A generic event exists exactly for an object whose first present kind key holds a terminal string; it carries that kind, the string `cwd`, the generic project name, and the payload |
| Event.Normalize | src/event.rs:15-21 | Per agent, an event exists exactly when that agent's recogniser accepts the payload; it keeps the agent, the payload and the string `cwd`; its kind is never empty; Claude and Codex take the project name from `cwd` |
| Event.NonObjectIgnored | src/event.rs:49-51 | A payload that is not a JSON object yields no event for any agent |
| Event.TerminalIsNonEmpty | src/event.rs:139-145 | A terminal kind is never empty |
| Event.TerminalIffWordAt | src/event.rs:139-145 | A kind is terminal exactly when one of complete, finish, done or stop occurs in its ASCII-lower-cased form |
| Event.TerminalByInfix | src/event.rs:139-145 | Any kind containing complete, finish, done or stop, in any ASCII case, is terminal |
| Event.TerminalIgnoresCase | src/event.rs:139-145 | Terminality does not depend on ASCII case |
| Event.GenericKindNoFallThrough | src/event.rs:107-113 | A non-string under the first present kind key rejects the event; later keys are not tried |
| Event.GenericKindPrefersEarlierKey | src/event.rs:107-113 | A string under `event_kind` wins over any later kind key |
| Event.GenericProjectFromCwd | src/event.rs:120-122 | A generic event with a string `cwd` is named like the other agents' events |
| Event.GenericProjectVerbatim | src/event.rs:120-128 | Without a string `cwd`, a string `project` is used verbatim, and "unknown project" only when there is none |
| Event.GenericEmptyProjectScenario | src/event.rs:123-127 | A generic completion with `"project": ""` and no `cwd` gets an empty project name |
| Event.ClaudeStopScenario | src/event.rs:153-164 | The Stop payload of the unit tests normalises to a task end in project "agitiser" |
| Event.AnnouncementMessage | src/event.rs:23-30 | The sentence is the display name, " finished a ", the kind, " in ", and the project, and each part can be read back from it |
| Event.AnnouncementNamesAgentAndProject | src/event.rs:23-30 | The sentence is longer than the project name, and a generic event is announced as "Agent finished a ..." |
| Template.AgentTemplateOwnSlot | src/template.rs:19-25 | Each agent reads its own override: it sees the value set for it, and setting another agent's override or the global template does not change it |
| Template.NormalizeTemplate | src/template.rs:27-29 | A template counts exactly when it is present and not blank |
| Template.ResolveTemplate | src/template.rs:72-75 | A resolved template is never blank, and it is either the agent's override or the global template |
| Template.ResolvePrecedence | src/template.rs:72-75 | A usable agent override wins, then a usable global template; there is none exactly when neither is usable |
| Template.ResolveScenario | src/template.rs:108-120 | In the unit-test configuration, Codex gets its override and Claude gets the global template |
| Template.ContextFromEvent | src/template.rs:31-44 | The context binds the display name, kind and project, and `cwd` or the empty string |
| Template.RenderTemplate | src/template.rs:46-61 | Rendering yields text exactly when the template compiles and renders to non-blank output, and it yields that output |
| Template.ValidateTemplate | src/template.rs:63-70 | A template is accepted exactly when it compiles; otherwise the error says the syntax is invalid |
| Template.RenderAnnouncementMessage | src/template.rs:77-85 | The spoken text is never blank; it is the default sentence or the resolved template's own rendering |
| Template.FallbackNotBlank | src/template.rs:77-85 | The default sentence is never blank |
| Template.NoTemplateFallsBack | src/template.rs:77-82 | Without a usable template the default sentence is spoken |
| Template.InvalidTemplateFallsBack | src/template.rs:137-147 | A template that validation rejects is never rendered; the default sentence is spoken |
| Template.UnusableRenderingFallsBack | src/template.rs:46-85 | A render error or blank output gives the default sentence |
| Template.RenderedTextIsSpoken | src/template.rs:77-85 | A valid template whose rendering is not blank is spoken exactly as rendered |
| Commands.Dedup | src/main.rs:231-239 | Deduplication never lengthens the list and keeps exactly the same agents |
| Commands.DedupAgents | src/main.rs:231-239 | The loop computes the reference deduplication, and its result has no repeats and the same agents as the input |
| Commands.DedupDistinct | src/main.rs:231-239 | The result never repeats an agent |
| Commands.DedupFirstMentionOrder | src/main.rs:231-239 | Agents appear in the order of their first mention |
| Commands.DedupOfDistinct | src/main.rs:231-239 | A list without repeats is returned unchanged |
| Commands.DedupIdempotent | src/main.rs:231-239 | Deduplicating twice is the same as deduplicating once |

## Left out

- File I/O is not modelled: `setup`, `remove` and `is_configured` read and write files. The load rules (a missing or blank file is an empty document) and the writers are left out. Each `apply_*` function takes the loaded document and returns the new one.
- JSON and TOML parsing and printing are not modelled. Key order, formatting and comments, which toml_edit preserves, are not represented: a TOML document is a map from keys to values. Floating-point JSON numbers are integers here; no modelled operation reads a number.
- Handlebars is not modelled. Template syntax, lenient placeholder lookup and HTML escaping belong to the engine, which is a parameter. Only the engine's two outcomes (compiles or not; renders to text or not) are modelled.
- Paths are strings. `PathBuf` conversion cannot fail for a JSON string, and the lossy conversion of a non-UTF-8 executable path is not modelled. Only Unix `/` separators are modelled.
- Event-kind labels are carried in `LocalState` but are read by none of the modelled operations, so no operation uses them.
- Not modelled, because they sit outside the named core: the command-line parser, speech dispatch, the paths module, the `doctor` command and the rest of `main.rs` apart from `dedup_agents`.
- The OpenCode integration: the source only prints that it is not implemented.
- Nothing of the per-entry retains is left out, but the properties of the whole document are stated over the flattened Stop hooks. `SetupEntry` and `RemoveEntry` work on one entry, and the "desired already seen" flag is threaded from entry to entry. `ScanForSetup` proves each entry's hooks to be the retain of its own array, and the whole pass equal to one retain over the flattened hooks. Entries that are not objects, or have no `hooks` array, are skipped, as in the source.

=== FILE: agents.dfy ===
/** The agents the notifier knows about. */
module Agents {

  /** The agent whose payload is ingested and announced. */
  datatype Agent = Claude | Codex | Generic {

    /** The name spoken in announcements. */
    function DisplayName(): (r: string)
      ensures |r| > 0
      ensures this == Generic <==> r == "Agent"
    {
      match this
      case Claude => "Claude"
      case Codex => "Codex"
      case Generic => "Agent"
    }
  }

  /** The integrations that `setup` and `remove` accept. */
  datatype SetupAgent = SetupClaude | SetupCodex | SetupOpencode
}

=== FILE: claude.dfy ===
/**
 * The Claude integration: idempotent insertion and removal of the managed
 * command inside the `hooks.Stop` array of a Claude settings document.
 *
 * The document is a `Json` tree. `hooks.Stop` holds entries
 * `{matcher, hooks: [{type, command}, ...]}`; a hook is "managed" when its
 * command carries both marker substrings. Both mutators return the new
 * document together with the `changed` flag the source computes.
 */
module Claude {
  import opened Wrappers
  import opened Text
  import opened Json

  const StopEvent: string := "Stop"
  const HooksKey: string := "hooks"
  const CommandKey: string := "command"
  const AgentMarker: string := "ingest --agent claude"
  const SourceMarker: string := "--source claude-hook"

  // ---------------------------------------------------------------------
  // The managed command and its shell quoting
  // ---------------------------------------------------------------------

  /** The command belongs to this tool: it names the ingest subcommand and the hook source. */
  predicate IsManagedCommand(command: string)
  {
    Contains(command, AgentMarker) && Contains(command, SourceMarker)
  }

  /** A command is managed exactly when both markers occur in it, wherever they are. */
  lemma IsManagedCommandIff(command: string)
    ensures IsManagedCommand(command) <==>
              (exists i :: OccursAt(command, AgentMarker, i)) && (exists j :: OccursAt(command, SourceMarker, j))
  {
    ContainsIffOccurs(command, AgentMarker);
    ContainsIffOccurs(command, SourceMarker);
  }

  /** Each `'` becomes `'"'"'`: close the quote, emit a double-quoted `'`, reopen. */
  function EscapeSingleQuotes(value: string): string
  {
    if |value| == 0 then ""
    else (if value[0] == '\'' then "'\"'\"'" else [value[0]]) + EscapeSingleQuotes(value[1..])
  }

  /** Wraps `value` in single quotes so a POSIX shell reads it back verbatim. */
  function ShellQuote(value: string): (r: string)
    ensures (forall i :: 0 <= i < |value| ==> value[i] != '\'') ==> r == "'" + value + "'"
    ensures |r| >= 2 && r[0] == '\'' && r[|r| - 1] == '\''
  {
    NoQuotesEscapeUnchanged(value);
    "'" + EscapeSingleQuotes(value) + "'"
  }

  lemma {:induction false} NoQuotesEscapeUnchanged(value: string)
    ensures (forall i :: 0 <= i < |value| ==> value[i] != '\'') ==> EscapeSingleQuotes(value) == value
    decreases |value|
  {
    if |value| > 0 {
      NoQuotesEscapeUnchanged(value[1..]);
      assert value == [value[0]] + value[1..];
    }
  }

  /** Where a POSIX shell word reader stands: outside quotes, inside '…', or inside "…". */
  datatype QuoteState = Unquoted | InSingle | InDouble

  /**
   * Reads a shell word made of quoted segments, as sh does: inside '…' every
   * character is literal; inside "…" a character is literal unless it is
   * `\`, `$` or a backquote. Anything outside this subset reads as None.
   */
  function ShellUnquote(s: string, state: QuoteState): Option<string>
    decreases |s|
  {
    if |s| == 0 then
      (if state == Unquoted then Some("") else None)
    else
      var c := s[0];
      match state
      case Unquoted =>
        if c == '\'' then ShellUnquote(s[1..], InSingle)
        else if c == '"' then ShellUnquote(s[1..], InDouble)
        else None
      case InSingle =>
        if c == '\'' then ShellUnquote(s[1..], Unquoted)
        else (match ShellUnquote(s[1..], InSingle)
          case Some(rest) => Some([c] + rest)
          case None => None)
      case InDouble =>
        if c == '"' then ShellUnquote(s[1..], Unquoted)
        else if c == '\\' || c == '$' || c == '`' then None
        else (match ShellUnquote(s[1..], InDouble)
          case Some(rest) => Some([c] + rest)
          case None => None)
  }

  lemma {:induction false} EscapedTailUnquotes(value: string)
    ensures ShellUnquote(EscapeSingleQuotes(value) + "'", InSingle) == Some(value)
    decreases |value|
  {
    if |value| == 0 {
      assert EscapeSingleQuotes(value) + "'" == "'";
      assert ShellUnquote("'"[1..], Unquoted) == Some("");
    } else {
      var rest := EscapeSingleQuotes(value[1..]) + "'";
      EscapedTailUnquotes(value[1..]);
      if value[0] == '\'' {
        assert EscapeSingleQuotes(value) + "'" == "'\"'\"'" + rest;
        EscapedQuoteUnquotes(rest, value[1..]);
        assert ['\''] + value[1..] == value;
      } else {
        var s := [value[0]] + rest;
        assert EscapeSingleQuotes(value) + "'" == s;
        assert s[1..] == rest;
        assert [value[0]] + value[1..] == value;
      }
    }
  }

  /** Inside '…', the escape `'"'"'` reads as one `'`, and reading goes on inside '…'. */
  lemma EscapedQuoteUnquotes(rest: string, v: string)
    requires ShellUnquote(rest, InSingle) == Some(v)
    ensures ShellUnquote("'\"'\"'" + rest, InSingle) == Some(['\''] + v)
  {
    var s := "'\"'\"'" + rest;
    assert s[4..] == "'" + rest && s[5..] == rest;
    assert ShellUnquote(s[4..], Unquoted) == Some(v);
    assert ShellUnquote(s[3..], InDouble) == Some(v) by {
      assert s[3] == '"' && s[3..][1..] == s[4..];
    }
    assert ShellUnquote(s[2..], InDouble) == Some(['\''] + v) by {
      assert s[2] == '\'' && s[2..][1..] == s[3..];
    }
    assert ShellUnquote(s[1..], Unquoted) == Some(['\''] + v) by {
      assert s[1] == '"' && s[1..][1..] == s[2..];
    }
    assert s[0] == '\'' && s[0..][1..] == s[1..];
  }

  /** A shell reading the quoted word gets back exactly the original string. */
  lemma ShellQuoteRoundTrip(value: string)
    ensures ShellUnquote(ShellQuote(value), Unquoted) == Some(value)
  {
    var q := ShellQuote(value);
    assert q[1..] == EscapeSingleQuotes(value) + "'";
    EscapedTailUnquotes(value);
  }

  /**
   * The hook command installed for the executable at `executablePath`:
   * `AGITISER_NOTIFY=1 '<path>' ingest --agent claude --source claude-hook >/dev/null 2>&1`.
   */
  function ManagedCommand(executablePath: string): (r: string)
    ensures IsManagedCommand(r)
    ensures StartsWith(r, "AGITISER_NOTIFY=1 " + ShellQuote(executablePath) + " ")
  {
    var head := "AGITISER_NOTIFY=1 " + ShellQuote(executablePath) + " ";
    var tail := " >/dev/null 2>&1";
    var r := head + AgentMarker + " " + SourceMarker + tail;
    assert r == head + AgentMarker + (" " + SourceMarker + tail);
    ContainsInfix(head, AgentMarker, " " + SourceMarker + tail);
    ContainsInfix(head + AgentMarker + " ", SourceMarker, tail);
    assert r[..|head|] == head;
    r
  }

  // ---------------------------------------------------------------------
  // Hooks and Stop entries
  // ---------------------------------------------------------------------

  /** The hook's `command` string; empty when it is missing or not a string. */
  function HookCommand(hook: Json): string
  {
    GetStr(hook, CommandKey).GetOr("")
  }

  predicate IsManagedHook(hook: Json)
  {
    IsManagedCommand(HookCommand(hook))
  }

  /** The managed hooks of a list, in order. */
  function ManagedHooks(hooks: seq<Json>): (r: seq<Json>)
    ensures |r| <= |hooks|
    ensures forall i :: 0 <= i < |r| ==> IsManagedHook(r[i])
  {
    if |hooks| == 0 then []
    else (if IsManagedHook(hooks[0]) then [hooks[0]] else []) + ManagedHooks(hooks[1..])
  }

  /** The hooks this tool does not own, in order. */
  function UnmanagedHooks(hooks: seq<Json>): (r: seq<Json>)
    ensures |r| <= |hooks|
    ensures forall i :: 0 <= i < |r| ==> !IsManagedHook(r[i])
  {
    if |hooks| == 0 then []
    else (if IsManagedHook(hooks[0]) then [] else [hooks[0]]) + UnmanagedHooks(hooks[1..])
  }

  /** A list splits into its managed and its unmanaged hooks. */
  lemma {:induction false} PartitionSize(hooks: seq<Json>)
    ensures |ManagedHooks(hooks)| + |UnmanagedHooks(hooks)| == |hooks|
    decreases |hooks|
  {
    if |hooks| > 0 {
      PartitionSize(hooks[1..]);
    }
  }

  lemma {:induction false} ManagedHooksConcat(a: seq<Json>, b: seq<Json>)
    ensures ManagedHooks(a + b) == ManagedHooks(a) + ManagedHooks(b)
    decreases |a|
  {
    if |a| > 0 {
      assert (a + b)[1..] == a[1..] + b;
      ManagedHooksConcat(a[1..], b);
    } else {
      assert a + b == b;
    }
  }

  lemma {:induction false} UnmanagedHooksConcat(a: seq<Json>, b: seq<Json>)
    ensures UnmanagedHooks(a + b) == UnmanagedHooks(a) + UnmanagedHooks(b)
    decreases |a|
  {
    if |a| > 0 {
      assert (a + b)[1..] == a[1..] + b;
      UnmanagedHooksConcat(a[1..], b);
    } else {
      assert a + b == b;
    }
  }

  /** Some hook of the list is managed and carries exactly `command`. */
  predicate HasDesired(hooks: seq<Json>, command: string)
  {
    exists i :: 0 <= i < |hooks| && IsManagedHook(hooks[i]) && HookCommand(hooks[i]) == command
  }

  /** The hooks array of a Stop entry; absent when the entry has no `hooks` array. */
  function EntryHooks(entry: Json): Option<seq<Json>>
  {
    GetArr(entry, HooksKey)
  }

  /** The entry with its hooks array replaced (the in-place `retain` of the source). */
  function WithHooks(entry: Json, hooks: seq<Json>): (r: Json)
    requires entry.Obj?
    ensures EntryHooks(r) == Some(hooks)
  {
    Obj(entry.fields[HooksKey := Arr(hooks)])
  }

  /** `a` is `b` with at most its hooks array changed: same shape, same keys, same other fields. */
  predicate SameApartFromHooks(a: Json, b: Json)
  {
    if a.Obj? then
      && b.Obj? && a.fields.Keys == b.fields.Keys
      && forall k :: k in a.fields && k != HooksKey ==> a.fields[k] == b.fields[k]
    else a == b
  }

  /**
   * A pass over the Stop entries left `a` where `b` was: other fields kept,
   * hooks array present in both or neither, and untouched without one.
   */
  predicate SameEntryShape(a: Json, b: Json)
  {
    && SameApartFromHooks(a, b)
    && (EntryHooks(a).Some? <==> EntryHooks(b).Some?)
    && (EntryHooks(b).None? ==> a == b)
  }

  /** An entry is determined by its original and its new hooks array. */
  lemma SameShapeSameHooks(a: Json, b: Json, e: Json)
    requires SameEntryShape(a, e) && SameEntryShape(b, e)
    requires EntryHooks(a).GetOr([]) == EntryHooks(b).GetOr([])
    ensures a == b
  {
    if EntryHooks(e).Some? {
      assert a.fields[HooksKey] == b.fields[HooksKey];
      assert a.fields == b.fields;
    }
  }

  /** Setup's effect on one entry: the shape is kept, and so are its unmanaged hooks. */
  predicate SetupEntryStep(a: Json, b: Json)
  {
    SameEntryShape(a, b) && UnmanagedHooks(EntryHooks(a).GetOr([])) == UnmanagedHooks(EntryHooks(b).GetOr([]))
  }

  /** Remove's effect on one entry: the shape is kept, and the hooks array holds exactly its unmanaged hooks. */
  predicate RemoveEntryStep(a: Json, b: Json)
  {
    SameEntryShape(a, b) && EntryHooks(a).GetOr([]) == UnmanagedHooks(EntryHooks(b).GetOr([]))
  }

  /** Replacing an entry's hooks array keeps its shape. */
  lemma WithHooksShape(entry: Json, hooks: seq<Json>)
    requires EntryHooks(entry).Some?
    ensures SameEntryShape(WithHooks(entry, hooks), entry)
  {
  }

  /** The per-entry relation of setup extends from the tail to the whole list. */
  lemma SetupStepsCons(e': Json, e: Json, rest: seq<Json>, tail: seq<Json>)
    requires SetupEntryStep(e', e) && |rest| == |tail|
    requires forall i :: 0 <= i < |tail| ==> SetupEntryStep(rest[i], tail[i])
    ensures forall i :: 0 <= i < |tail| + 1 ==> SetupEntryStep(([e'] + rest)[i], ([e] + tail)[i])
  {
    forall i | 1 <= i < |tail| + 1
      ensures SetupEntryStep(([e'] + rest)[i], ([e] + tail)[i])
    {
      assert ([e'] + rest)[i] == rest[i - 1] && ([e] + tail)[i] == tail[i - 1];
    }
  }

  /** The per-entry relation of remove extends from the tail to the whole list. */
  lemma RemoveStepsCons(e': Json, e: Json, rest: seq<Json>, tail: seq<Json>)
    requires RemoveEntryStep(e', e) && |rest| == |tail|
    requires forall i :: 0 <= i < |tail| ==> RemoveEntryStep(rest[i], tail[i])
    ensures forall i :: 0 <= i < |tail| + 1 ==> RemoveEntryStep(([e'] + rest)[i], ([e] + tail)[i])
  {
    forall i | 1 <= i < |tail| + 1
      ensures RemoveEntryStep(([e'] + rest)[i], ([e] + tail)[i])
    {
      assert ([e'] + rest)[i] == rest[i - 1] && ([e] + tail)[i] == tail[i - 1];
    }
  }

  /** Every hook of every entry that has a hooks array, in entry/hook order. */
  function FlattenHooks(entries: seq<Json>): seq<Json>
  {
    if |entries| == 0 then []
    else EntryHooks(entries[0]).GetOr([]) + FlattenHooks(entries[1..])
  }

  lemma {:induction false} FlattenHooksConcat(a: seq<Json>, b: seq<Json>)
    ensures FlattenHooks(a + b) == FlattenHooks(a) + FlattenHooks(b)
    decreases |a|
  {
    if |a| > 0 {
      assert (a + b)[1..] == a[1..] + b;
      FlattenHooksConcat(a[1..], b);
    } else {
      assert a + b == b;
    }
  }

  /** The `stop_hooks.retain` test: keep an entry unless its hooks array is empty. */
  predicate KeepEntry(entry: Json)
  {
    EntryHooks(entry).None? || |EntryHooks(entry).value| > 0
  }

  /** The entries that have no hooks array at all (the source never drops them). */
  function EntriesWithoutHooks(entries: seq<Json>): seq<Json>
  {
    if |entries| == 0 then []
    else (if EntryHooks(entries[0]).None? then [entries[0]] else []) + EntriesWithoutHooks(entries[1..])
  }

  /** Drops the Stop entries whose hooks array is empty, keeping the others in order. */
  function PruneEntries(entries: seq<Json>): (r: seq<Json>)
    ensures |r| <= |entries|
    ensures |r| == |entries| ==> r == entries
    ensures forall i :: 0 <= i < |r| ==> KeepEntry(r[i])
    ensures (forall i :: 0 <= i < |entries| ==> KeepEntry(entries[i])) ==> r == entries
    ensures FlattenHooks(r) == FlattenHooks(entries)
    ensures EntriesWithoutHooks(r) == EntriesWithoutHooks(entries)
  {
    if |entries| == 0 then []
    else
      var rest := PruneEntries(entries[1..]);
      if KeepEntry(entries[0]) then
        assert ([entries[0]] + rest)[1..] == rest;
        [entries[0]] + rest
      else
        assert EntryHooks(entries[0]).GetOr([]) == [];
        rest
  }

  /** Pruning keeps exactly the entries that `KeepEntry` accepts. */
  lemma {:induction false} PruneEntriesMembers(entries: seq<Json>)
    ensures forall e :: e in PruneEntries(entries) <==> e in entries && KeepEntry(e)
    decreases |entries|
  {
    if |entries| > 0 {
      PruneEntriesMembers(entries[1..]);
      assert entries == [entries[0]] + entries[1..];
    }
  }

  /** Pruning works entry by entry: it splits over concatenation, and one entry stays exactly when it is kept. */
  lemma {:induction false} PruneEntriesConcat(a: seq<Json>, b: seq<Json>)
    ensures PruneEntries(a + b) == PruneEntries(a) + PruneEntries(b)
    ensures |a| == 1 ==> PruneEntries(a) == if KeepEntry(a[0]) then a else []
    decreases |a|
  {
    if |a| > 0 {
      assert (a + b)[1..] == a[1..] + b;
      PruneEntriesConcat(a[1..], b);
      if |a| == 1 {
        assert a[1..] == [];
        assert [a[0]] == a;
      }
    } else {
      assert a + b == b;
    }
  }

  /** The Stop array of the document, when root, `hooks` and `Stop` all have the right shape. */
  function StopEntries(settings: Json): Option<seq<Json>>
  {
    match Get(settings, HooksKey)
    case Some(hooks) => GetArr(hooks, StopEvent)
    case None => None
  }

  /** Every hook under `hooks.Stop`, in entry/hook order. */
  function AllHooks(settings: Json): seq<Json>
  {
    FlattenHooks(StopEntries(settings).GetOr([]))
  }

  /** `has_managed_hook`: some Stop entry holds a managed hook. */
  predicate HasManagedHook(settings: Json)
  {
    StopEntries(settings).Some? &&
    var entries := StopEntries(settings).value;
    exists i :: 0 <= i < |entries| && EntryHasManagedHook(entries[i])
  }

  predicate EntryHasManagedHook(entry: Json)
  {
    EntryHooks(entry).Some? &&
    var hooks := EntryHooks(entry).value;
    exists j :: 0 <= j < |hooks| && IsManagedHook(hooks[j])
  }

  lemma {:induction false} HasManagedIffFlat(entries: seq<Json>)
    ensures (exists i :: 0 <= i < |entries| && EntryHasManagedHook(entries[i]))
            <==> |ManagedHooks(FlattenHooks(entries))| > 0
    decreases |entries|
  {
    if |entries| > 0 {
      var first := EntryHooks(entries[0]).GetOr([]);
      HasManagedIffFlat(entries[1..]);
      ManagedHooksConcat(first, FlattenHooks(entries[1..]));
      ManagedNonEmptyIff(first);
      if exists i :: 0 <= i < |entries| && EntryHasManagedHook(entries[i]) {
        var i :| 0 <= i < |entries| && EntryHasManagedHook(entries[i]);
        if i > 0 {
          assert EntryHasManagedHook(entries[1..][i - 1]);
        }
      }
      if exists i :: 0 <= i < |entries[1..]| && EntryHasManagedHook(entries[1..][i]) {
        var i :| 0 <= i < |entries[1..]| && EntryHasManagedHook(entries[1..][i]);
        assert EntryHasManagedHook(entries[i + 1]);
      }
    }
  }

  lemma {:induction false} ManagedNonEmptyIff(hooks: seq<Json>)
    ensures |ManagedHooks(hooks)| > 0 <==> exists j :: 0 <= j < |hooks| && IsManagedHook(hooks[j])
    decreases |hooks|
  {
    if |hooks| > 0 {
      ManagedNonEmptyIff(hooks[1..]);
      if exists j :: 0 <= j < |hooks| && IsManagedHook(hooks[j]) {
        var j :| 0 <= j < |hooks| && IsManagedHook(hooks[j]);
        if j > 0 {
          assert IsManagedHook(hooks[1..][j - 1]);
        }
      }
      if exists j :: 0 <= j < |hooks[1..]| && IsManagedHook(hooks[1..][j]) {
        var j :| 0 <= j < |hooks[1..]| && IsManagedHook(hooks[1..][j]);
        assert IsManagedHook(hooks[j + 1]);
      }
    }
  }

  /** `has_managed_hook` holds exactly when some hook under `hooks.Stop` is managed. */
  lemma HasManagedHookIff(settings: Json)
    ensures HasManagedHook(settings) <==> |ManagedHooks(AllHooks(settings))| > 0
  {
    HasManagedIffFlat(StopEntries(settings).GetOr([]));
  }

  // ---------------------------------------------------------------------
  // apply_setup
  // ---------------------------------------------------------------------

  /** `ensure_root_object`: a non-object root is replaced by `{}`. */
  function EnsureRootObject(value: Json): (r: map<string, Json>)
    ensures value.Obj? ==> r == value.fields
    ensures !value.Obj? ==> r == map[]
  {
    if value.Obj? then value.fields else map[]
  }

  /** `ensure_object_entry`: a missing or non-object member becomes `{}`. */
  function EnsureObjectEntry(obj: map<string, Json>, key: string): (r: map<string, Json>)
    ensures key in obj && obj[key].Obj? ==> r == obj[key].fields
    ensures !(key in obj && obj[key].Obj?) ==> r == map[]
  {
    if key in obj && obj[key].Obj? then obj[key].fields else map[]
  }

  /** `ensure_array_entry`: a missing or non-array member becomes `[]`. */
  function EnsureArrayEntry(obj: map<string, Json>, key: string): (r: seq<Json>)
    ensures key in obj && obj[key].Arr? ==> r == obj[key].items
    ensures !(key in obj && obj[key].Arr?) ==> r == []
  {
    if key in obj && obj[key].Arr? then obj[key].items else []
  }

  /** The hook `{type: "command", command}` that setup installs. */
  function DesiredHook(command: string): (r: Json)
    ensures HookCommand(r) == command
  {
    Obj(map["type" := Str("command"), CommandKey := Str(command)])
  }

  /** The Stop entry `{matcher: "*", hooks: [DesiredHook(command)]}` that setup appends. */
  function DesiredEntry(command: string): (r: Json)
    ensures EntryHooks(r) == Some([DesiredHook(command)])
  {
    Obj(map["matcher" := Str("*"), HooksKey := Arr([DesiredHook(command)])])
  }

  datatype Retained = Retained(hooks: seq<Json>, desiredExists: bool)

  /**
   * The per-array `retain` of setup with the `desired_exists` flag threaded
   * through: unmanaged hooks stay, the first managed hook equal to `command`
   * stays while no copy has been kept, every other managed hook goes.
   */
  function RetainForSetup(hooks: seq<Json>, command: string, desiredExists: bool): (r: Retained)
    ensures |r.hooks| <= |hooks|
    ensures |r.hooks| == |hooks| ==> r.hooks == hooks
    decreases |hooks|
  {
    if |hooks| == 0 then
      Retained([], desiredExists)
    else
      var h := hooks[0];
      var managed := IsManagedHook(h);
      var keep := !managed || (HookCommand(h) == command && !desiredExists);
      var rest := RetainForSetup(hooks[1..], command, desiredExists || (managed && keep));
      if keep then
        assert hooks == [h] + hooks[1..];
        Retained([h] + rest.hooks, rest.desiredExists)
      else
        rest
  }

  /** Whether a list holds the desired copy is decided by its head, then its tail. */
  lemma HasDesiredStep(hooks: seq<Json>, command: string)
    requires |hooks| > 0
    ensures HasDesired(hooks, command) <==>
            (IsManagedHook(hooks[0]) && HookCommand(hooks[0]) == command) || HasDesired(hooks[1..], command)
  {
    if HasDesired(hooks, command) {
      var i :| 0 <= i < |hooks| && IsManagedHook(hooks[i]) && HookCommand(hooks[i]) == command;
      if i > 0 {
        assert hooks[1..][i - 1] == hooks[i];
      }
    }
    if HasDesired(hooks[1..], command) {
      var i :| 0 <= i < |hooks[1..]| && IsManagedHook(hooks[1..][i]) && HookCommand(hooks[1..][i]) == command;
      assert hooks[i + 1] == hooks[1..][i];
    }
  }

  /**
   * What setup's retain does to one list: the unmanaged hooks are untouched,
   * a copy is reported kept exactly when one existed, and afterwards the
   * only managed hook left is that copy, equal to `command`.
   */
  lemma {:induction false} RetainForSetupSpec(hooks: seq<Json>, command: string, desiredExists: bool)
    ensures var r := RetainForSetup(hooks, command, desiredExists);
            && UnmanagedHooks(r.hooks) == UnmanagedHooks(hooks)
            && (r.desiredExists <==> desiredExists || HasDesired(hooks, command))
            && (if !desiredExists && r.desiredExists
                then |ManagedHooks(r.hooks)| == 1 && HookCommand(ManagedHooks(r.hooks)[0]) == command
                else ManagedHooks(r.hooks) == [])
            && (ManagedHooks(hooks) == [] ==> r.hooks == hooks)
    decreases |hooks|
  {
    if |hooks| > 0 {
      var h := hooks[0];
      var managed := IsManagedHook(h);
      var keep := !managed || (HookCommand(h) == command && !desiredExists);
      var next := desiredExists || (managed && keep);
      var rest := RetainForSetup(hooks[1..], command, next);
      RetainForSetupSpec(hooks[1..], command, next);
      HasDesiredStep(hooks, command);
      if keep {
        assert RetainForSetup(hooks, command, desiredExists) == Retained([h] + rest.hooks, rest.desiredExists);
        assert ([h] + rest.hooks)[1..] == rest.hooks;
      } else {
        assert RetainForSetup(hooks, command, desiredExists) == rest;
      }
    }
  }

  /** With a copy already kept, setup strips every managed hook. */
  lemma {:induction false} RetainAfterDesiredStripsAll(hooks: seq<Json>, command: string)
    ensures RetainForSetup(hooks, command, true).hooks == UnmanagedHooks(hooks)
    decreases |hooks|
  {
    if |hooks| > 0 {
      RetainAfterDesiredStripsAll(hooks[1..], command);
    }
  }

  /**
   * The copy setup retains is the FIRST managed hook equal to `command`;
   * before and after it only the unmanaged hooks survive.
   */
  lemma {:induction false} RetainKeepsFirstDesired(hooks: seq<Json>, command: string, i: nat)
    requires i < |hooks| && IsManagedHook(hooks[i]) && HookCommand(hooks[i]) == command
    requires forall j :: 0 <= j < i ==> !(IsManagedHook(hooks[j]) && HookCommand(hooks[j]) == command)
    ensures RetainForSetup(hooks, command, false).hooks
            == UnmanagedHooks(hooks[..i]) + [hooks[i]] + UnmanagedHooks(hooks[i + 1..])
    decreases i
  {
    if i == 0 {
      RetainDesiredHead(hooks, command);
      assert hooks[..0] == [];
    } else {
      var rest := hooks[1..];
      RetainKeepsFirstDesired(rest, command, i - 1);
      assert rest[..i - 1] == hooks[1..i];
      assert rest[i - 1 + 1..] == hooks[i + 1..];
      RetainFirstDesiredStep(hooks, command, i);
    }
  }

  /** A desired head is kept, and every later managed hook is dropped. */
  lemma RetainDesiredHead(hooks: seq<Json>, command: string)
    requires |hooks| > 0 && IsManagedHook(hooks[0]) && HookCommand(hooks[0]) == command
    ensures RetainForSetup(hooks, command, false).hooks == [hooks[0]] + UnmanagedHooks(hooks[1..])
  {
    RetainAfterDesiredStripsAll(hooks[1..], command);
  }

  /** One step of `RetainKeepsFirstDesired`: prepend a head that is not the desired copy. */
  lemma RetainFirstDesiredStep(hooks: seq<Json>, command: string, i: nat)
    requires 0 < i < |hooks|
    requires !(IsManagedHook(hooks[0]) && HookCommand(hooks[0]) == command)
    requires RetainForSetup(hooks[1..], command, false).hooks
             == UnmanagedHooks(hooks[1..i]) + [hooks[i]] + UnmanagedHooks(hooks[i + 1..])
    ensures RetainForSetup(hooks, command, false).hooks
            == UnmanagedHooks(hooks[..i]) + [hooks[i]] + UnmanagedHooks(hooks[i + 1..])
  {
    var mid := UnmanagedHooks(hooks[1..i]);
    var tail := UnmanagedHooks(hooks[i + 1..]);
    var first := if IsManagedHook(hooks[0]) then [] else [hooks[0]];
    assert RetainForSetup(hooks, command, false).hooks == first + (mid + [hooks[i]] + tail) by {
      RetainUndesiredHead(hooks, command);
    }
    assert UnmanagedHooks(hooks[..i]) == first + mid by {
      UnmanagedPrefixStep(hooks, i);
    }
    ConcatRegroup(first, mid, [hooks[i]], tail);
  }

  lemma ConcatRegroup(a: seq<Json>, b: seq<Json>, c: seq<Json>, d: seq<Json>)
    ensures a + (b + c + d) == (a + b) + c + d
  {
  }

  lemma UnmanagedPrefixStep(hooks: seq<Json>, i: nat)
    requires 0 < i <= |hooks|
    ensures UnmanagedHooks(hooks[..i])
            == (if IsManagedHook(hooks[0]) then [] else [hooks[0]]) + UnmanagedHooks(hooks[1..i])
  {
    assert hooks[..i][1..] == hooks[1..i];
  }

  /** A head that is not the desired copy is kept if unmanaged and dropped if managed. */
  lemma RetainUndesiredHead(hooks: seq<Json>, command: string)
    requires |hooks| > 0 && !(IsManagedHook(hooks[0]) && HookCommand(hooks[0]) == command)
    ensures RetainForSetup(hooks, command, false).hooks
            == (if IsManagedHook(hooks[0]) then [] else [hooks[0]]) + RetainForSetup(hooks[1..], command, false).hooks
  {
  }

  /** Without any managed hook equal to `command`, setup strips every managed hook. */
  lemma {:induction false} RetainWithoutDesiredStripsAll(hooks: seq<Json>, command: string)
    requires !HasDesired(hooks, command)
    ensures RetainForSetup(hooks, command, false).hooks == UnmanagedHooks(hooks)
    decreases |hooks|
  {
    if |hooks| > 0 {
      RetainWithoutDesiredStripsAll(hooks[1..], command);
    }
  }

  /** Retaining over two lists in a row is retaining over their concatenation. */
  lemma {:induction false} RetainConcat(a: seq<Json>, b: seq<Json>, command: string, desiredExists: bool)
    ensures var ra := RetainForSetup(a, command, desiredExists);
            var rb := RetainForSetup(b, command, ra.desiredExists);
            RetainForSetup(a + b, command, desiredExists) == Retained(ra.hooks + rb.hooks, rb.desiredExists)
    decreases |a|
  {
    if |a| == 0 {
      assert a + b == b;
    } else {
      assert (a + b)[0] == a[0];
      assert (a + b)[1..] == a[1..] + b;
      var h := a[0];
      var managed := IsManagedHook(h);
      var keep := !managed || (HookCommand(h) == command && !desiredExists);
      var next := desiredExists || (managed && keep);
      RetainConcat(a[1..], b, command, next);
      var ra1 := RetainForSetup(a[1..], command, next);
      var rb := RetainForSetup(b, command, ra1.desiredExists);
      var rab := RetainForSetup(a[1..] + b, command, next);
      assert rab == Retained(ra1.hooks + rb.hooks, rb.desiredExists);
      if keep {
        assert RetainForSetup(a, command, desiredExists) == Retained([h] + ra1.hooks, ra1.desiredExists);
        assert RetainForSetup(a + b, command, desiredExists) == Retained([h] + rab.hooks, rab.desiredExists) by {
          assert (a + b)[0] == h;
        }
        ConcatRegroup([h], ra1.hooks, rb.hooks, []);
        assert [h] + (ra1.hooks + rb.hooks) == ([h] + ra1.hooks) + rb.hooks by {
          assert ra1.hooks + rb.hooks + [] == ra1.hooks + rb.hooks;
          assert ([h] + ra1.hooks) + rb.hooks + [] == ([h] + ra1.hooks) + rb.hooks;
        }
      } else {
        assert RetainForSetup(a, command, desiredExists) == ra1;
        assert RetainForSetup(a + b, command, desiredExists) == rab;
      }
    }
  }

  /** Setup's retain on one entry's hooks array is a setup step for that entry. */
  lemma RetainedEntryStep(e: Json, command: string, desiredExists: bool)
    requires EntryHooks(e).Some?
    ensures SetupEntryStep(WithHooks(e, RetainForSetup(EntryHooks(e).value, command, desiredExists).hooks), e)
  {
    var hooks := EntryHooks(e).value;
    RetainForSetupSpec(hooks, command, desiredExists);
    WithHooksShape(e, RetainForSetup(hooks, command, desiredExists).hooks);
  }

  datatype Scan = Scan(entries: seq<Json>, desiredExists: bool, changed: bool)

  /** The work on one Stop entry, and the `desired_exists` flag after it. */
  datatype EntryStep = EntryStep(entry: Json, desiredExists: bool, changed: bool)

  /** Setup's retain on the hooks array of one entry; an entry without one is left alone. */
  function SetupEntry(e: Json, command: string, desiredExists: bool): (r: EntryStep)
    ensures SetupEntryStep(r.entry, e)
    ensures var kept := RetainForSetup(EntryHooks(e).GetOr([]), command, desiredExists);
            EntryHooks(r.entry).GetOr([]) == kept.hooks && r.desiredExists == kept.desiredExists
    ensures !r.changed ==> r.entry == e
    ensures r.changed ==> |EntryHooks(r.entry).GetOr([])| < |EntryHooks(e).GetOr([])|
  {
    match EntryHooks(e)
    case None => EntryStep(e, desiredExists, false)
    case Some(hooks) =>
      var kept := RetainForSetup(hooks, command, desiredExists);
      RetainedEntryStep(e, command, desiredExists);
      if |kept.hooks| == |hooks| then
        assert e.fields[HooksKey] == Arr(hooks);
        assert WithHooks(e, kept.hooks) == e;
        EntryStep(e, kept.desiredExists, false)
      else
        EntryStep(WithHooks(e, kept.hooks), kept.desiredExists, true)
  }

  /** The `desired_exists` flag once the hooks arrays of the first `i` entries have been retained. */
  function SeenBefore(entries: seq<Json>, i: nat, command: string, desiredExists: bool): bool
    requires i <= |entries|
  {
    RetainForSetup(FlattenHooks(entries[..i]), command, desiredExists).desiredExists
  }

  /**
   * Each entry of `out` holds the retain of the corresponding entry's OWN
   * hooks array, started from the flag the entries before it left: no hook
   * moves from one entry to another.
   */
  predicate RetainsOwnHooks(out: seq<Json>, entries: seq<Json>, command: string, desiredExists: bool)
    requires |out| == |entries|
  {
    forall i :: 0 <= i < |entries| ==>
      EntryHooks(out[i]).GetOr([])
        == RetainForSetup(EntryHooks(entries[i]).GetOr([]), command, SeenBefore(entries, i, command, desiredExists)).hooks
  }

  /** One more entry in front, retained from the starting flag, keeps `RetainsOwnHooks`. */
  lemma RetainsOwnHooksCons(e': Json, e: Json, rest: seq<Json>, tail: seq<Json>, command: string, desiredExists: bool)
    requires |rest| == |tail|
    requires EntryHooks(e').GetOr([]) == RetainForSetup(EntryHooks(e).GetOr([]), command, desiredExists).hooks
    requires RetainsOwnHooks(rest, tail, command, RetainForSetup(EntryHooks(e).GetOr([]), command, desiredExists).desiredExists)
    ensures RetainsOwnHooks([e'] + rest, [e] + tail, command, desiredExists)
  {
    var own := EntryHooks(e).GetOr([]);
    var next := RetainForSetup(own, command, desiredExists).desiredExists;
    var entries, out := [e] + tail, [e'] + rest;
    forall i | 0 <= i < |entries|
      ensures EntryHooks(out[i]).GetOr([])
        == RetainForSetup(EntryHooks(entries[i]).GetOr([]), command, SeenBefore(entries, i, command, desiredExists)).hooks
    {
      if i == 0 {
        assert entries[..0] == [];
      } else {
        assert entries[i] == tail[i - 1] && out[i] == rest[i - 1];
        assert entries[..i] == [e] + tail[..i - 1];
        FlattenHooksConcat([e], tail[..i - 1]);
        assert FlattenHooks([e]) == own by {
          assert [e][1..] == [];
        }
        RetainConcat(own, FlattenHooks(tail[..i - 1]), command, desiredExists);
        assert SeenBefore(entries, i, command, desiredExists) == SeenBefore(tail, i - 1, command, next);
      }
    }
  }

  /**
   * What the setup pass over Stop entries promises about its result `r`:
   * entry by entry, the shape and the unmanaged hooks are kept and the hooks
   * are the retain of that entry's own array; over the
   * flattened hooks it acts as one retain; it reports a change exactly
   * when a hook was dropped; entries without a hooks array stay as they are.
   */
  predicate IsSetupScan(r: Scan, entries: seq<Json>, command: string, desiredExists: bool)
  {
    && |r.entries| == |entries|
    && (forall i :: 0 <= i < |entries| ==> SetupEntryStep(r.entries[i], entries[i]))
    && RetainsOwnHooks(r.entries, entries, command, desiredExists)
    && (var flat := RetainForSetup(FlattenHooks(entries), command, desiredExists);
        FlattenHooks(r.entries) == flat.hooks && r.desiredExists == flat.desiredExists)
    && (!r.changed ==> r.entries == entries)
    && (r.changed ==> |FlattenHooks(r.entries)| < |FlattenHooks(entries)|)
    && EntriesWithoutHooks(r.entries) == EntriesWithoutHooks(entries)
  }

  /** One more entry in front: the setup pass's promise extends from the tail to the list. */
  lemma SetupScanCons(e: Json, tail: seq<Json>, command: string, desiredExists: bool, rest: Scan)
    requires IsSetupScan(rest, tail, command, SetupEntry(e, command, desiredExists).desiredExists)
    ensures var head := SetupEntry(e, command, desiredExists);
            IsSetupScan(Scan([head.entry] + rest.entries, rest.desiredExists, head.changed || rest.changed),
                        [e] + tail, command, desiredExists)
  {
    var head := SetupEntry(e, command, desiredExists);
    var entries := [e] + tail;
    var out := [head.entry] + rest.entries;
    assert entries[1..] == tail && out[1..] == rest.entries;
    SetupStepsCons(head.entry, e, rest.entries, tail);
    RetainsOwnHooksCons(head.entry, e, rest.entries, tail, command, desiredExists);
    assert FlattenHooks(out) == EntryHooks(head.entry).GetOr([]) + FlattenHooks(rest.entries);
    assert FlattenHooks(entries) == EntryHooks(e).GetOr([]) + FlattenHooks(tail);
    RetainConcat(EntryHooks(e).GetOr([]), FlattenHooks(tail), command, desiredExists);
  }

  /**
   * The setup pass's promise leaves no choice: two results that both keep
   * it hold the same entries.
   */
  lemma SetupScanDetermined(r1: Scan, r2: Scan, entries: seq<Json>, command: string, desiredExists: bool)
    requires IsSetupScan(r1, entries, command, desiredExists)
    requires IsSetupScan(r2, entries, command, desiredExists)
    ensures r1.entries == r2.entries
  {
    forall i | 0 <= i < |entries|
      ensures r1.entries[i] == r2.entries[i]
    {
      SameShapeSameHooks(r1.entries[i], r2.entries[i], entries[i]);
    }
  }

  /**
   * The loop over Stop entries in setup: each entry keeps its place and its
   * other fields, and its hooks become the retain of its own hooks array.
   */
  function ScanForSetup(entries: seq<Json>, command: string, desiredExists: bool): (r: Scan)
    ensures IsSetupScan(r, entries, command, desiredExists)
    decreases |entries|
  {
    if |entries| == 0 then
      Scan([], desiredExists, false)
    else
      var e, tail := entries[0], entries[1..];
      var head := SetupEntry(e, command, desiredExists);
      var rest := ScanForSetup(tail, command, head.desiredExists);
      SetupScanCons(e, tail, command, desiredExists, rest);
      assert entries == [e] + tail;
      Scan([head.entry] + rest.entries, rest.desiredExists, head.changed || rest.changed)
  }

  datatype StopUpdate = StopUpdate(entries: seq<Json>, changed: bool)

  /** Setup's work on the Stop array once the slots have been coerced: retain, prune, append if needed. */
  function SetupStop(stop: seq<Json>, command: string): (r: StopUpdate)
  {
    var scan := ScanForSetup(stop, command, false);
    var pruned := PruneEntries(scan.entries);
    var entries := if scan.desiredExists then pruned else pruned + [DesiredEntry(command)];
    StopUpdate(entries, scan.changed || |pruned| != |scan.entries| || !scan.desiredExists)
  }

  /**
   * `apply_setup`: coerce root, `hooks` and `hooks.Stop` into shape, strip
   * managed hooks except the first copy of `command`, drop emptied entries,
   * append the desired entry if no copy survived.
   */
  function ApplySetup(settings: Json, command: string): (r: (Json, bool))
    ensures r.0.Obj? && HooksKey in r.0.fields
    ensures StopEntries(r.0) == Some(SetupStop(StopEntries(settings).GetOr([]), command).entries)
    ensures r.1 == SetupStop(StopEntries(settings).GetOr([]), command).changed
    ensures r.0.fields.Keys == EnsureRootObject(settings).Keys + {HooksKey}
    ensures forall k :: k in EnsureRootObject(settings) && k != HooksKey ==>
              r.0.fields[k] == settings.fields[k]
    ensures var hooks := r.0.fields[HooksKey];
            var old_hooks := EnsureObjectEntry(EnsureRootObject(settings), HooksKey);
            && hooks.Obj?
            && hooks.fields.Keys == old_hooks.Keys + {StopEvent}
            && forall k :: k in old_hooks && k != StopEvent ==> hooks.fields[k] == old_hooks[k]
  {
    var root := EnsureRootObject(settings);
    var hooks := EnsureObjectEntry(root, HooksKey);
    var stop := EnsureArrayEntry(hooks, StopEvent);
    assert stop == StopEntries(settings).GetOr([]);
    var update := SetupStop(stop, command);
    (Obj(root[HooksKey := Obj(hooks[StopEvent := Arr(update.entries)])]), update.changed)
  }

  /** After setup with a managed command, `hooks.Stop` holds exactly one managed hook, and it is `command`. */
  lemma SetupLeavesOneManagedHook(settings: Json, command: string)
    requires IsManagedCommand(command)
    ensures var hooks := ManagedHooks(AllHooks(ApplySetup(settings, command).0));
            |hooks| == 1 && HookCommand(hooks[0]) == command
    ensures HasManagedHook(ApplySetup(settings, command).0)
  {
    var stop := StopEntries(settings).GetOr([]);
    SetupStopHooks(stop, command);
    HasManagedHookIff(ApplySetup(settings, command).0);
  }

  /**
   * The hooks under `hooks.Stop` after setup are the retained hooks of the
   * original list, followed by the desired hook when no copy survived.
   */
  lemma {:induction false} SetupStopHooks(stop: seq<Json>, command: string)
    ensures var ret := RetainForSetup(FlattenHooks(stop), command, false);
            FlattenHooks(SetupStop(stop, command).entries)
            == ret.hooks + (if ret.desiredExists then [] else [DesiredHook(command)])
    ensures IsManagedCommand(command) ==>
            var hooks := ManagedHooks(FlattenHooks(SetupStop(stop, command).entries));
            |hooks| == 1 && HookCommand(hooks[0]) == command
    ensures forall i :: 0 <= i < |SetupStop(stop, command).entries| ==>
              KeepEntry(SetupStop(stop, command).entries[i])
  {
    var scan := ScanForSetup(stop, command, false);
    var pruned := PruneEntries(scan.entries);
    var ret := RetainForSetup(FlattenHooks(stop), command, false);
    RetainForSetupSpec(FlattenHooks(stop), command, false);
    if !scan.desiredExists {
      FlattenHooksConcat(pruned, [DesiredEntry(command)]);
      assert FlattenHooks([DesiredEntry(command)]) == [DesiredHook(command)];
      ManagedHooksConcat(ret.hooks, [DesiredHook(command)]);
      var entries := pruned + [DesiredEntry(command)];
      forall i | 0 <= i < |entries|
        ensures KeepEntry(entries[i])
      {
        if i < |pruned| {
          assert entries[i] == pruned[i];
        }
      }
    }
  }

  /** Setup with a managed command keeps every unmanaged hook, in order. */
  lemma SetupKeepsUnmanagedHooks(settings: Json, command: string)
    requires IsManagedCommand(command)
    ensures UnmanagedHooks(AllHooks(ApplySetup(settings, command).0)) == UnmanagedHooks(AllHooks(settings))
  {
    var stop := StopEntries(settings).GetOr([]);
    SetupStopHooks(stop, command);
    var ret := RetainForSetup(FlattenHooks(stop), command, false);
    RetainForSetupSpec(FlattenHooks(stop), command, false);
    UnmanagedHooksConcat(ret.hooks, if ret.desiredExists then [] else [DesiredHook(command)]);
  }

  /** Setup never drops a Stop entry that has no hooks array, nor reorders those entries. */
  lemma SetupKeepsEntriesWithoutHooks(settings: Json, command: string)
    ensures EntriesWithoutHooks(StopEntries(ApplySetup(settings, command).0).value)
            == EntriesWithoutHooks(StopEntries(settings).GetOr([]))
  {
    var stop := StopEntries(settings).GetOr([]);
    var scan := ScanForSetup(stop, command, false);
    var pruned := PruneEntries(scan.entries);
    if !scan.desiredExists {
      EntriesWithoutHooksConcat(pruned, [DesiredEntry(command)]);
    }
  }

  lemma {:induction false} EntriesWithoutHooksConcat(a: seq<Json>, b: seq<Json>)
    ensures EntriesWithoutHooks(a + b) == EntriesWithoutHooks(a) + EntriesWithoutHooks(b)
    decreases |a|
  {
    if |a| > 0 {
      assert (a + b)[1..] == a[1..] + b;
      EntriesWithoutHooksConcat(a[1..], b);
    } else {
      assert a + b == b;
    }
  }

  /** On the Stop array, setup reports a change exactly when it changes something. */
  lemma {:induction false} SetupStopReportsChange(stop: seq<Json>, command: string)
    ensures SetupStop(stop, command).changed <==> SetupStop(stop, command).entries != stop
  {
    var scan := ScanForSetup(stop, command, false);
    var pruned := PruneEntries(scan.entries);
    var ret := RetainForSetup(FlattenHooks(stop), command, false);
    var update := SetupStop(stop, command);
    SetupStopHooks(stop, command);
    RetainForSetupSpec(FlattenHooks(stop), command, false);
    if update.entries == stop && scan.desiredExists {
      assert pruned == stop;
      assert FlattenHooks(scan.entries) == FlattenHooks(stop);
    } else if update.entries == stop {
      assert FlattenHooks(stop) == ret.hooks + [DesiredHook(command)];
      var last := |FlattenHooks(stop)| - 1;
      assert FlattenHooks(stop)[last] == DesiredHook(command);
      if !IsManagedCommand(command) {
        ManagedHooksConcat(ret.hooks, [DesiredHook(command)]);
      }
    }
  }

  /** `apply_setup` returns true exactly when the document changed. */
  lemma SetupReportsChange(settings: Json, command: string)
    ensures ApplySetup(settings, command).1 <==> ApplySetup(settings, command).0 != settings
  {
    var stop := StopEntries(settings).GetOr([]);
    SetupStopReportsChange(stop, command);
    var r := ApplySetup(settings, command);
    if StopEntries(settings).Some? {
      var root := settings.fields;
      var hooks := root[HooksKey].fields;
      if !r.1 {
        assert hooks[StopEvent := Arr(stop)] == hooks;
        assert root[HooksKey := Obj(hooks)] == root;
      }
      if r.0 == settings {
        assert StopEntries(r.0) == StopEntries(settings);
      }
    } else {
      assert ScanForSetup([], command, false).desiredExists == false;
      assert r.0 != settings by {
        assert StopEntries(r.0).Some?;
      }
    }
  }

  /** A second setup with the same managed command reports no change and leaves the document as it is. */
  lemma SetupIdempotent(settings: Json, command: string)
    requires IsManagedCommand(command)
    ensures var once := ApplySetup(settings, command).0;
            ApplySetup(once, command) == (once, false)
  {
    var once := ApplySetup(settings, command).0;
    SetupStopIdempotent(StopEntries(settings).GetOr([]), command);
    SetupReportsChange(once, command);
  }

  /** On the Stop array: what setup produced, a second setup leaves alone. */
  lemma SetupStopIdempotent(stop: seq<Json>, command: string)
    requires IsManagedCommand(command)
    ensures var once := SetupStop(stop, command).entries;
            SetupStop(once, command) == StopUpdate(once, false)
  {
    var once := SetupStop(stop, command).entries;
    SetupStopHooks(stop, command);
    var flat := FlattenHooks(once);
    RetainKeepsLoneDesired(flat, command);
    var scan := ScanForSetup(once, command, false);
    assert scan.entries == once;
  }

  /** A list whose only managed hook is the desired copy is left as it is, and the copy is found. */
  lemma RetainKeepsLoneDesired(hooks: seq<Json>, command: string)
    requires |ManagedHooks(hooks)| == 1 && HookCommand(ManagedHooks(hooks)[0]) == command
    ensures RetainForSetup(hooks, command, false) == Retained(hooks, true)
  {
    ManagedNonEmptyIff(hooks);
    var j :| 0 <= j < |hooks| && IsManagedHook(hooks[j]);
    OnlyManagedIsDesired(hooks, j, command);
    var ret := RetainForSetup(hooks, command, false);
    RetainForSetupSpec(hooks, command, false);
    PartitionSize(hooks);
    PartitionSize(ret.hooks);
  }

  /** In a list whose only managed hook is `command`, that hook is the desired copy. */
  lemma {:induction false} OnlyManagedIsDesired(hooks: seq<Json>, j: nat, command: string)
    requires j < |hooks| && IsManagedHook(hooks[j])
    requires |ManagedHooks(hooks)| == 1 && HookCommand(ManagedHooks(hooks)[0]) == command
    ensures HasDesired(hooks, command)
    decreases |hooks|
  {
    if IsManagedHook(hooks[0]) {
      assert ManagedHooks(hooks)[0] == hooks[0];
    } else {
      assert ManagedHooks(hooks) == ManagedHooks(hooks[1..]);
      assert j > 0;
      assert hooks[1..][j - 1] == hooks[j];
      OnlyManagedIsDesired(hooks[1..], j - 1, command);
      var i :| 0 <= i < |hooks[1..]| && IsManagedHook(hooks[1..][i]) && HookCommand(hooks[1..][i]) == command;
      assert hooks[i + 1] == hooks[1..][i];
    }
  }

  // ---------------------------------------------------------------------
  // apply_remove
  // ---------------------------------------------------------------------

  /** Remove's retain on the hooks array of one entry; an entry without one is left alone. */
  function RemoveEntry(e: Json): (r: EntryStep)
    ensures RemoveEntryStep(r.entry, e)
    ensures !r.desiredExists
    ensures !r.changed ==> r.entry == e
    ensures r.changed ==> |EntryHooks(r.entry).GetOr([])| < |EntryHooks(e).GetOr([])|
  {
    match EntryHooks(e)
    case None => EntryStep(e, false, false)
    case Some(hooks) =>
      var kept := UnmanagedHooks(hooks);
      WithHooksShape(e, kept);
      if |kept| == |hooks| then
        UnmanagedUnchanged(hooks);
        assert e.fields[HooksKey] == Arr(hooks);
        assert WithHooks(e, kept) == e;
        EntryStep(e, false, false)
      else
        EntryStep(WithHooks(e, kept), false, true)
  }

  /**
   * What the remove pass over Stop entries promises about its result `r`:
   * entry by entry, the shape is kept and the hooks array keeps exactly its
   * unmanaged hooks; it reports a change exactly when a hook was dropped.
   */
  predicate IsRemoveScan(r: Scan, entries: seq<Json>)
  {
    && |r.entries| == |entries|
    && (forall i :: 0 <= i < |entries| ==> RemoveEntryStep(r.entries[i], entries[i]))
    && FlattenHooks(r.entries) == UnmanagedHooks(FlattenHooks(entries))
    && (!r.changed ==> r.entries == entries)
    && (r.changed ==> |FlattenHooks(r.entries)| < |FlattenHooks(entries)|)
    && EntriesWithoutHooks(r.entries) == EntriesWithoutHooks(entries)
  }

  /** One more entry in front: the remove pass's promise extends from the tail to the list. */
  lemma RemoveScanCons(e: Json, tail: seq<Json>, rest: Scan)
    requires IsRemoveScan(rest, tail)
    ensures var head := RemoveEntry(e);
            IsRemoveScan(Scan([head.entry] + rest.entries, false, head.changed || rest.changed), [e] + tail)
  {
    var head := RemoveEntry(e);
    var entries := [e] + tail;
    var out := [head.entry] + rest.entries;
    assert entries[1..] == tail && out[1..] == rest.entries;
    RemoveStepsCons(head.entry, e, rest.entries, tail);
    assert FlattenHooks(out) == EntryHooks(head.entry).GetOr([]) + FlattenHooks(rest.entries);
    assert FlattenHooks(entries) == EntryHooks(e).GetOr([]) + FlattenHooks(tail);
    UnmanagedHooksConcat(EntryHooks(e).GetOr([]), FlattenHooks(tail));
  }

  /**
   * The loop over Stop entries in remove: each entry keeps its place and its
   * other fields, and its hooks array loses exactly its managed hooks.
   */
  function ScanForRemove(entries: seq<Json>): (r: Scan)
    ensures IsRemoveScan(r, entries)
    decreases |entries|
  {
    if |entries| == 0 then
      Scan([], false, false)
    else
      var e, tail := entries[0], entries[1..];
      var head := RemoveEntry(e);
      var rest := ScanForRemove(tail);
      RemoveScanCons(e, tail, rest);
      assert entries == [e] + tail;
      Scan([head.entry] + rest.entries, false, head.changed || rest.changed)
  }

  lemma {:induction false} UnmanagedUnchanged(hooks: seq<Json>)
    requires |UnmanagedHooks(hooks)| == |hooks|
    ensures UnmanagedHooks(hooks) == hooks
    decreases |hooks|
  {
    if |hooks| > 0 {
      assert !IsManagedHook(hooks[0]);
      UnmanagedUnchanged(hooks[1..]);
    }
  }

  /** The document has `hooks.Stop == []` (the shape remove cleans up first). */
  predicate HasEmptyStopArray(settings: Json)
  {
    StopEntries(settings) == Some([])
  }

  /** Removes the key from `hooks`, and `hooks` from the root when that leaves it empty. */
  function DropStop(root: map<string, Json>, hooks: map<string, Json>): Json
  {
    var hooks' := hooks - {StopEvent};
    if |hooks'| == 0 then Obj(root - {HooksKey}) else Obj(root[HooksKey := Obj(hooks')])
  }

  /**
   * `apply_remove`: clean up an empty Stop array and report false; leave a
   * document of the wrong shape alone; otherwise strip every managed hook,
   * drop emptied entries, and prune `Stop` and `hooks` when they end up empty.
   */
  function ApplyRemove(settings: Json): (r: (Json, bool))
    ensures !settings.Obj? ==> r == (settings, false)
    ensures settings.Obj? && StopEntries(settings).None? ==> r == (settings, false)
    ensures HasEmptyStopArray(settings) ==> !r.1
    ensures StopEntries(r.0).Some? ==> StopEntries(r.0).value != []
    ensures r.0.Obj? <==> settings.Obj?
    ensures settings.Obj? ==> forall k :: k in settings.fields && k != HooksKey ==>
              k in r.0.fields && r.0.fields[k] == settings.fields[k]
    ensures settings.Obj? ==> r.0.fields.Keys <= settings.fields.Keys
  {
    if HasEmptyStopArray(settings) then
      (DropStop(settings.fields, settings.fields[HooksKey].fields), false)
    else if StopEntries(settings).None? then
      (settings, false)
    else
      var root := settings.fields;
      var hooks := root[HooksKey].fields;
      var stop := hooks[StopEvent].items;
      var scan := ScanForRemove(stop);
      var pruned := PruneEntries(scan.entries);
      var changed := scan.changed || |pruned| != |scan.entries|;
      if |pruned| == 0 then
        (DropStop(root, hooks), true)
      else
        (Obj(root[HooksKey := Obj(hooks[StopEvent := Arr(pruned)])]), changed)
  }

  /** Remove leaves exactly the unmanaged hooks, in order, and so no managed hook. */
  lemma RemoveStripsManagedHooks(settings: Json)
    ensures AllHooks(ApplyRemove(settings).0) == UnmanagedHooks(AllHooks(settings))
    ensures !HasManagedHook(ApplyRemove(settings).0)
  {
    var r := ApplyRemove(settings).0;
    RemoveKeepsUnmanagedHooks(settings);
    UnmanagedManagedEmpty(AllHooks(settings));
    HasManagedHookIff(r);
  }

  lemma RemoveKeepsUnmanagedHooks(settings: Json)
    ensures AllHooks(ApplyRemove(settings).0) == UnmanagedHooks(AllHooks(settings))
  {
    var r := ApplyRemove(settings).0;
    if HasEmptyStopArray(settings) {
      var root := settings.fields;
      StopEntriesOfDrop(root, root[HooksKey].fields);
      assert AllHooks(settings) == FlattenHooks([]);
    } else if StopEntries(settings).None? {
      assert AllHooks(settings) == [];
    } else {
      var root := settings.fields;
      var hooks := root[HooksKey].fields;
      var stop := hooks[StopEvent].items;
      var pruned := PruneEntries(ScanForRemove(stop).entries);
      assert FlattenHooks(pruned) == UnmanagedHooks(FlattenHooks(stop));
      if |pruned| == 0 {
        assert r == DropStop(root, hooks);
        StopEntriesOfDrop(root, hooks);
        assert FlattenHooks(pruned) == [];
      } else {
        assert r == Obj(root[HooksKey := Obj(hooks[StopEvent := Arr(pruned)])]);
        StopEntriesOfSet(root, hooks, pruned);
      }
    }
  }

  lemma StopEntriesOfDrop(root: map<string, Json>, hooks: map<string, Json>)
    ensures StopEntries(DropStop(root, hooks)).None?
  {
  }

  lemma StopEntriesOfSet(root: map<string, Json>, hooks: map<string, Json>, entries: seq<Json>)
    ensures StopEntries(Obj(root[HooksKey := Obj(hooks[StopEvent := Arr(entries)])])) == Some(entries)
  {
  }

  lemma {:induction false} UnmanagedManagedEmpty(hooks: seq<Json>)
    ensures ManagedHooks(UnmanagedHooks(hooks)) == []
    decreases |hooks|
  {
    if |hooks| > 0 {
      UnmanagedManagedEmpty(hooks[1..]);
      ManagedHooksConcat(if IsManagedHook(hooks[0]) then [] else [hooks[0]], UnmanagedHooks(hooks[1..]));
    }
  }

  /** Remove touches no member of `hooks` other than `Stop`, and drops `hooks` only when nothing else is in it. */
  lemma RemoveKeepsOtherEvents(settings: Json, key: string)
    requires Get(settings, HooksKey).Some? && Get(settings, HooksKey).value.Obj?
    requires key != StopEvent && key in Get(settings, HooksKey).value.fields
    ensures var r := ApplyRemove(settings).0;
            Get(r, HooksKey).Some? && Get(Get(r, HooksKey).value, key) == Get(Get(settings, HooksKey).value, key)
  {
  }

  /** On `{"hooks": {"Stop": []}}` remove deletes `Stop`, then `hooks` if that empties it, yet reports false. */
  lemma RemoveCleansEmptyStop(root: map<string, Json>, hooks: map<string, Json>)
    requires HooksKey in root && root[HooksKey] == Obj(hooks)
    requires StopEvent in hooks && hooks[StopEvent] == Arr([])
    ensures ApplyRemove(Obj(root)) == (DropStop(root, hooks), false)
    ensures ApplyRemove(Obj(root)).0 != Obj(root)
    ensures hooks.Keys == {StopEvent} ==> ApplyRemove(Obj(root)).0 == Obj(root - {HooksKey})
  {
    assert HooksKey !in DropStop(root, hooks).fields || StopEvent !in DropStop(root, hooks).fields[HooksKey].fields;
    if hooks.Keys == {StopEvent} {
      assert (hooks - {StopEvent}).Keys == {};
    }
  }

  /**
   * Remove reports true exactly when it changed the document, except for the
   * empty-Stop clean-up, which changes the document and reports false.
   */
  lemma RemoveReportsChange(settings: Json)
    ensures ApplyRemove(settings).1 <==> ApplyRemove(settings).0 != settings && !HasEmptyStopArray(settings)
  {
    var r := ApplyRemove(settings);
    if HasEmptyStopArray(settings) {
      RemoveCleansEmptyStop(settings.fields, settings.fields[HooksKey].fields);
    } else if StopEntries(settings).Some? {
      var root := settings.fields;
      var hooks := root[HooksKey].fields;
      var stop := hooks[StopEvent].items;
      var scan := ScanForRemove(stop);
      var pruned := PruneEntries(scan.entries);
      if |pruned| == 0 {
        assert StopEntries(r.0).None?;
      } else {
        if !r.1 {
          assert hooks[StopEvent := Arr(stop)] == hooks;
          assert root[HooksKey := Obj(hooks)] == root;
        }
        if r.0 == settings {
          assert pruned == stop;
          assert |FlattenHooks(scan.entries)| == |FlattenHooks(stop)|;
        }
      }
    }
  }

  /** Setup then remove on a document without `hooks` gives the document back, and reports the removal. */
  lemma SetupThenRemoveRoundTrip(root: map<string, Json>, command: string)
    requires HooksKey !in root
    requires IsManagedCommand(command)
    ensures ApplyRemove(ApplySetup(Obj(root), command).0) == (Obj(root), true)
    ensures !HasManagedHook(ApplyRemove(ApplySetup(Obj(root), command).0).0)
  {
    var once := ApplySetup(Obj(root), command).0;
    var entry := DesiredEntry(command);
    assert ScanForSetup([], command, false) == Scan([], false, false);
    assert PruneEntries([]) == [];
    assert SetupStop([], command).entries == [] + [entry] == [entry];
    assert StopEntries(once) == Some([entry]);
    assert UnmanagedHooks([DesiredHook(command)]) == [];
    var scan := ScanForRemove([entry]);
    assert EntryHooks(scan.entries[0]) == Some([]);
    assert PruneEntries(scan.entries) == [];
    assert once.fields[HooksKey].fields == map[StopEvent := Arr([entry])];
    assert (map[StopEvent := Arr([entry])] - {StopEvent}) == map[];
    assert once.fields - {HooksKey} == root;
    RemoveStripsManagedHooks(once);
  }
}

=== FILE: codex.dfy ===
/**
 * The Codex integration: the top-level `notify` key of the Codex TOML
 * configuration is swapped for the managed command, and a foreign value
 * found there is kept in the local state so that removal can restore it.
 *
 * Each mutator returns the new document, the new local state and the
 * `changed` flag.
 */
module Codex {
  import opened Wrappers
  import opened State

  /** A TOML value as toml_edit exposes it; formatting and comments are not modelled. */
  datatype TomlVal =
    | TStr(s: string)
    | TInt(i: int)
    | TBool(b: bool)
    | TArr(items: seq<TomlVal>)
    | TTable(fields: map<string, TomlVal>)

  /** The top-level table of a TOML document. */
  type TomlDoc = map<string, TomlVal>

  const NotifyKey: string := "notify"
  const SourceValue: string := "codex-notify"

  /** `[executable, "ingest", "--agent", "codex", "--source", "codex-notify"]`. */
  function ManagedNotifyCommand(executablePath: string): (r: seq<string>)
    ensures IsManagedNotify(r)
    ensures |r| == 6 && r[0] == executablePath
  {
    [executablePath, "ingest", "--agent", "codex", "--source", SourceValue]
  }

  /** Every marker token is an element of the command, in any order. */
  predicate IsManagedNotify(notify: seq<string>)
  {
    && "ingest" in notify
    && "--agent" in notify
    && "codex" in notify
    && "--source" in notify
    && SourceValue in notify
  }

  /** The TOML array of strings `set_notify` writes. */
  function ToToml(command: seq<string>): (r: seq<TomlVal>)
    ensures |r| == |command|
    ensures forall i :: 0 <= i < |r| ==> r[i] == TStr(command[i])
  {
    seq(|command|, i requires 0 <= i < |command| => TStr(command[i]))
  }

  /** Collects the items of an array as strings; None as soon as one is not a string. */
  function StringsOf(items: seq<TomlVal>): Option<seq<string>>
  {
    if |items| == 0 then Some([])
    else match (items[0], StringsOf(items[1..]))
      case (TStr(s), Some(rest)) => Some([s] + rest)
      case _ => None
  }

  /** An array reads back as strings exactly when it is the TOML form of those strings. */
  lemma {:induction false} StringsOfIff(items: seq<TomlVal>, strs: seq<string>)
    ensures StringsOf(items) == Some(strs) <==> items == ToToml(strs)
    decreases |items|
  {
    if |items| > 0 && |strs| > 0 {
      StringsOfIff(items[1..], strs[1..]);
      assert ToToml(strs)[1..] == ToToml(strs[1..]);
      assert strs == [strs[0]] + strs[1..];
      if items == ToToml(strs) {
        assert items[1..] == ToToml(strs[1..]);
      }
      if StringsOf(items) == Some(strs) {
        assert items == [items[0]] + items[1..];
      }
    } else if |items| > 0 {
      if StringsOf(items).Some? {
        assert |StringsOf(items).value| > 0;
      }
    }
  }

  /** `extract_notify`: the `notify` value when it is an array of strings. */
  function ExtractNotify(doc: TomlDoc): (r: Option<seq<string>>)
    ensures r.Some? ==> NotifyKey in doc && doc[NotifyKey] == TArr(ToToml(r.value))
    ensures NotifyKey !in doc ==> r.None?
  {
    if NotifyKey in doc && doc[NotifyKey].TArr? then
      var r := StringsOf(doc[NotifyKey].items);
      if r.Some? then
        StringsOfIff(doc[NotifyKey].items, r.value);
        r
      else
        r
    else
      None
  }

  /** `set_notify`: `notify` becomes the array of the given strings. */
  function SetNotify(doc: TomlDoc, command: seq<string>): (r: TomlDoc)
    ensures ExtractNotify(r) == Some(command)
    ensures r - {NotifyKey} == doc - {NotifyKey}
  {
    StringsOfIff(ToToml(command), command);
    doc[NotifyKey := TArr(ToToml(command))]
  }

  /** `remove_notify`. */
  function RemoveNotify(doc: TomlDoc): (r: TomlDoc)
    ensures NotifyKey !in r && ExtractNotify(r).None?
    ensures r - {NotifyKey} == doc - {NotifyKey}
  {
    doc - {NotifyKey}
  }

  /** `is_configured` on a loaded document: `notify` is a managed string array. */
  predicate IsConfigured(doc: TomlDoc)
  {
    ExtractNotify(doc).Some? && IsManagedNotify(ExtractNotify(doc).value)
  }

  /**
   * A command is managed exactly when it holds, as a sub-multiset, the
   * arguments of the command setup writes, whatever the executable; so a
   * managed command has at least those five tokens.
   */
  lemma {:induction false} ManagedNotifyHoldsOwnArguments(notify: seq<string>, executablePath: string)
    ensures IsManagedNotify(notify) <==> multiset(ManagedNotifyCommand(executablePath)[1..]) <= multiset(notify)
    ensures IsManagedNotify(notify) ==> |notify| >= |ManagedNotifyCommand(executablePath)| - 1
  {
    var args := ManagedNotifyCommand(executablePath)[1..];
    assert args == ["ingest", "--agent", "codex", "--source", SourceValue];
    var m := multiset{"ingest", "--agent", "codex", "--source", SourceValue};
    assert multiset(args) == m;
    if IsManagedNotify(notify) {
      forall t ensures m[t] <= multiset(notify)[t] {
        if t in m {
          assert t in notify;
        }
      }
      assert m <= multiset(notify);
      assert |m| <= |multiset(notify)|;
    }
    if m <= multiset(notify) {
      forall t | t in m ensures t in notify {
        assert t in multiset(notify);
      }
    }
  }

  /** Only which tokens occur matters: reordering the command does not change whether it is managed. */
  lemma ManagedNotifyIgnoresOrder(a: seq<string>, b: seq<string>)
    requires multiset(a) == multiset(b)
    ensures IsManagedNotify(a) <==> IsManagedNotify(b)
  {
    assert forall m :: m in a <==> m in multiset(a);
    assert forall m :: m in b <==> m in multiset(b);
  }

  /** Sets the captured value, leaving the rest of the local state alone. */
  function WithPreviousNotify(state: LocalState, previous: Option<seq<string>>): LocalState
  {
    state.(codex := state.codex.(previousNotify := previous))
  }

  /**
   * `apply_setup`: no-op when `notify` already equals `desired`; otherwise
   * write `desired`, first capturing a foreign string-array value into an
   * empty `previous_notify` slot.
   */
  function ApplySetup(doc: TomlDoc, state: LocalState, desired: seq<string>): (r: (TomlDoc, LocalState, bool))
    ensures !r.2 <==> ExtractNotify(doc) == Some(desired)
    ensures !r.2 ==> r.0 == doc && r.1 == state
    ensures ExtractNotify(r.0) == Some(desired)
    ensures r.0 - {NotifyKey} == doc - {NotifyKey}
    ensures r.1.templates == state.templates && r.1.eventKindLabels == state.eventKindLabels
    ensures r.1.codex.previousNotify ==
              if r.2 && state.codex.previousNotify.None? && ExtractNotify(doc).Some?
                 && !IsManagedNotify(ExtractNotify(doc).value)
              then ExtractNotify(doc)
              else state.codex.previousNotify
  {
    match ExtractNotify(doc)
    case Some(notify) =>
      if notify == desired then
        (doc, state, false)
      else if IsManagedNotify(notify) then
        (SetNotify(doc, desired), state, true)
      else
        var state' := if state.codex.previousNotify.None? then WithPreviousNotify(state, Some(notify)) else state;
        (SetNotify(doc, desired), state', true)
    case None =>
      (SetNotify(doc, desired), state, true)
  }

  /**
   * `apply_remove`: when `notify` is managed, restore the captured value
   * (clearing it) or delete the key; otherwise change nothing.
   */
  function ApplyRemove(doc: TomlDoc, state: LocalState): (r: (TomlDoc, LocalState, bool))
    ensures r.2 <==> IsConfigured(doc)
    ensures !r.2 ==> r.0 == doc && r.1 == state
    ensures r.2 ==> r.1 == WithPreviousNotify(state, None)
    ensures r.2 && state.codex.previousNotify.Some? ==> ExtractNotify(r.0) == state.codex.previousNotify
    ensures r.2 && state.codex.previousNotify.None? ==> NotifyKey !in r.0
    ensures r.0 - {NotifyKey} == doc - {NotifyKey}
  {
    match ExtractNotify(doc)
    case None => (doc, state, false)
    case Some(existing) =>
      if !IsManagedNotify(existing) then
        (doc, state, false)
      else
        match state.codex.previousNotify
        case Some(previous) => (SetNotify(doc, previous), WithPreviousNotify(state, None), true)
        case None => (RemoveNotify(doc), WithPreviousNotify(state, None), true)
  }

  /** After setup with a managed command, the configuration reads as configured. */
  lemma SetupConfigures(doc: TomlDoc, state: LocalState, desired: seq<string>)
    requires IsManagedNotify(desired)
    ensures IsConfigured(ApplySetup(doc, state, desired).0)
    ensures ApplyRemove(ApplySetup(doc, state, desired).0, ApplySetup(doc, state, desired).1).2
  {
  }

  /** Setup reports a change exactly when the document changed. */
  lemma SetupReportsChange(doc: TomlDoc, state: LocalState, desired: seq<string>)
    ensures ApplySetup(doc, state, desired).2 <==> ApplySetup(doc, state, desired).0 != doc
  {
  }

  /** A second setup with the same command is a no-op on document and state alike. */
  lemma SetupIdempotent(doc: TomlDoc, state: LocalState, desired: seq<string>)
    ensures var r := ApplySetup(doc, state, desired);
            ApplySetup(r.0, r.1, desired) == (r.0, r.1, false)
  {
  }

  /** An original already captured is never overwritten by a later setup. */
  lemma SetupNeverOverwritesCapture(doc: TomlDoc, state: LocalState, desired: seq<string>)
    requires state.codex.previousNotify.Some?
    ensures ApplySetup(doc, state, desired).1 == state
  {
  }

  /** The captured value is never a managed command: setup and remove both keep this. */
  predicate CaptureIsForeign(state: LocalState)
  {
    state.codex.previousNotify.None? || !IsManagedNotify(state.codex.previousNotify.value)
  }

  lemma MutatorsKeepCaptureForeign(doc: TomlDoc, state: LocalState, desired: seq<string>)
    requires CaptureIsForeign(state)
    ensures CaptureIsForeign(ApplySetup(doc, state, desired).1)
    ensures CaptureIsForeign(ApplyRemove(doc, state).1)
  {
  }

  /** With a foreign capture (or none), remove always leaves the document unconfigured. */
  lemma RemoveUnconfigures(doc: TomlDoc, state: LocalState)
    requires CaptureIsForeign(state)
    ensures !IsConfigured(ApplyRemove(doc, state).0)
  {
  }

  /**
   * Round trip: from a document whose `notify` is absent or a foreign string
   * array, and nothing captured, setup then remove gives back the document
   * and the state, and reports the removal.
   */
  lemma SetupThenRemoveRestores(doc: TomlDoc, state: LocalState, desired: seq<string>)
    requires IsManagedNotify(desired)
    requires state.codex.previousNotify.None?
    requires NotifyKey !in doc || (ExtractNotify(doc).Some? && !IsManagedNotify(ExtractNotify(doc).value))
    ensures var s := ApplySetup(doc, state, desired);
            ApplyRemove(s.0, s.1) == (doc, state, true)
  {
    var s := ApplySetup(doc, state, desired);
    var r := ApplyRemove(s.0, s.1);
    assert state.codex == CodexState(None);
    assert WithPreviousNotify(s.1, None) == state;
    if NotifyKey in doc {
      assert r.0 == doc[NotifyKey := TArr(ToToml(ExtractNotify(doc).value))];
      assert r.0 == doc;
    } else {
      assert r.0 == doc[NotifyKey := TArr(ToToml(desired))] - {NotifyKey};
      assert r.0 == doc;
    }
  }

  /**
   * A `notify` that is present but not a string array is overwritten without
   * being captured, so setup then remove deletes it.
   */
  lemma SetupThenRemoveDropsUnreadableNotify(doc: TomlDoc, state: LocalState, desired: seq<string>)
    requires IsManagedNotify(desired)
    requires state.codex.previousNotify.None?
    requires NotifyKey in doc && ExtractNotify(doc).None?
    ensures var s := ApplySetup(doc, state, desired);
            s.1 == state && ApplyRemove(s.0, s.1) == (doc - {NotifyKey}, state, true)
  {
    var s := ApplySetup(doc, state, desired);
    assert ApplyRemove(s.0, s.1).0 == doc[NotifyKey := TArr(ToToml(desired))] - {NotifyKey};
  }

  /**
   * The unit-test configuration: a foreign `notify-send` command is captured
   * by setup, replaced by the managed command, and restored by remove.
   */
  lemma CaptureAndRestoreScenario()
    ensures var foreign := ["notify-send", "Codex"];
            var doc := map[NotifyKey := TArr([TStr("notify-send"), TStr("Codex")])];
            var managed := ManagedNotifyCommand("/tmp/agitiser-notify");
            var s := ApplySetup(doc, DefaultState, managed);
            && s.2 && s.1.codex.previousNotify == Some(foreign)
            && ExtractNotify(s.0) == Some(managed)
            && ApplyRemove(s.0, s.1) == (doc, DefaultState, true)
  {
    var foreign := ["notify-send", "Codex"];
    var doc := map[NotifyKey := TArr([TStr("notify-send"), TStr("Codex")])];
    assert ToToml(foreign) == [TStr("notify-send"), TStr("Codex")];
    StringsOfIff(doc[NotifyKey].items, foreign);
    assert ExtractNotify(doc) == Some(foreign);
    assert "ingest" !in foreign;
    SetupThenRemoveRestores(doc, DefaultState, ManagedNotifyCommand("/tmp/agitiser-notify"));
  }
}

=== FILE: commands.dfy ===
/**
 * `dedup_agents`: the agents named on the `setup` / `remove` command line,
 * each once, in the order of first mention.
 */
module Commands {
  import opened Agents

  predicate Distinct(s: seq<SetupAgent>)
  {
    forall i, j :: 0 <= i < j < |s| ==> s[i] != s[j]
  }

  /** Reference definition: keep the last element exactly when it was not seen before. */
  function Dedup(s: seq<SetupAgent>): (r: seq<SetupAgent>)
    ensures |r| <= |s|
    ensures forall x :: x in r <==> x in s
  {
    if |s| == 0 then []
    else if s[|s| - 1] in s[..|s| - 1] then Dedup(s[..|s| - 1])
    else
      var init := s[..|s| - 1];
      assert forall x :: x in s <==> x in init || x == s[|s| - 1] by {
        assert s == init + [s[|s| - 1]];
      }
      Dedup(init) + [s[|s| - 1]]
  }

  /** The position of the first occurrence of `x`. */
  function FirstIndex(s: seq<SetupAgent>, x: SetupAgent): (i: nat)
    requires x in s
    ensures i < |s| && s[i] == x
    ensures forall j :: 0 <= j < i ==> s[j] != x
  {
    if s[0] == x then 0 else 1 + FirstIndex(s[1..], x)
  }

  /** `dedup_agents`. */
  method DedupAgents(agents: seq<SetupAgent>) returns (ordered: seq<SetupAgent>)
    ensures ordered == Dedup(agents)
    ensures Distinct(ordered)
    ensures forall a :: a in ordered <==> a in agents
  {
    ordered := [];
    for k := 0 to |agents|
      invariant ordered == Dedup(agents[..k])
      invariant Distinct(ordered)
    {
      var agent := agents[k];
      assert agents[..k + 1][..k] == agents[..k];
      if agent !in ordered {
        ordered := ordered + [agent];
      }
    }
    assert agents[..|agents|] == agents;
  }

  /** The deduplicated list never repeats an element. */
  lemma {:induction false} DedupDistinct(s: seq<SetupAgent>)
    ensures Distinct(Dedup(s))
    decreases |s|
  {
    if |s| > 0 {
      DedupDistinct(s[..|s| - 1]);
    }
  }

  /** Deduplication relative to a prefix: the prefix's result is extended in place. */
  lemma {:induction false} DedupSnoc(s: seq<SetupAgent>, x: SetupAgent)
    ensures Dedup(s + [x]) == if x in s then Dedup(s) else Dedup(s) + [x]
  {
    assert (s + [x])[..|s|] == s;
  }

  /** The first occurrence in `s + [x]` of an element of `s` is where it is in `s`. */
  lemma {:induction false} FirstIndexSnoc(s: seq<SetupAgent>, x: SetupAgent, y: SetupAgent)
    requires y in s
    ensures FirstIndex(s + [x], y) == FirstIndex(s, y)
    decreases |s|
  {
    if s[0] != y {
      assert (s + [x])[1..] == s[1..] + [x];
      FirstIndexSnoc(s[1..], x, y);
    }
  }

  /** `r` lists elements of `s` in the order of their first occurrence in `s`. */
  predicate InFirstMentionOrder(s: seq<SetupAgent>, r: seq<SetupAgent>)
    requires forall y :: y in r ==> y in s
  {
    forall i, j :: 0 <= i < j < |r| ==> FirstIndex(s, r[i]) < FirstIndex(s, r[j])
  }

  /**
   * Appending `x` to `s` keeps the order of the elements already listed, and
   * a new `x` listed last is in order too.
   */
  lemma FirstMentionSnoc(init: seq<SetupAgent>, x: SetupAgent, r0: seq<SetupAgent>)
    requires forall y :: y in r0 ==> y in init
    requires InFirstMentionOrder(init, r0)
    ensures forall y :: y in r0 ==> y in init + [x]
    ensures InFirstMentionOrder(init + [x], r0)
    ensures x !in init ==> InFirstMentionOrder(init + [x], r0 + [x])
  {
    var s := init + [x];
    forall y | y in r0
      ensures y in s && FirstIndex(s, y) == FirstIndex(init, y) < |init|
    {
      FirstIndexSnoc(init, x, y);
    }
    if x !in init {
      var r := r0 + [x];
      assert FirstIndex(s, x) == |init|;
      forall i, j | 0 <= i < j < |r|
        ensures FirstIndex(s, r[i]) < FirstIndex(s, r[j])
      {
        assert r[i] == r0[i];
        if j < |r0| {
          assert r[j] == r0[j];
        } else {
          assert r[j] == x;
        }
      }
    }
  }

  /** Elements keep the order of their first mention. */
  lemma {:induction false} DedupFirstMentionOrder(s: seq<SetupAgent>)
    ensures var r := Dedup(s);
            forall i, j :: 0 <= i < j < |r| ==> FirstIndex(s, r[i]) < FirstIndex(s, r[j])
    decreases |s|
  {
    if |s| > 0 {
      var init, x := s[..|s| - 1], s[|s| - 1];
      assert s == init + [x];
      DedupFirstMentionOrder(init);
      DedupSnoc(init, x);
      FirstMentionSnoc(init, x, Dedup(init));
    }
  }

  /** A list without repeats is returned as it is. */
  lemma {:induction false} DedupOfDistinct(s: seq<SetupAgent>)
    requires Distinct(s)
    ensures Dedup(s) == s
    decreases |s|
  {
    if |s| > 0 {
      var init := s[..|s| - 1];
      assert s[|s| - 1] !in init;
      DedupOfDistinct(init);
      assert init + [s[|s| - 1]] == s;
    }
  }

  /** Deduplicating twice is deduplicating once. */
  lemma DedupIdempotent(s: seq<SetupAgent>)
    ensures Dedup(Dedup(s)) == Dedup(s)
  {
    DedupDistinct(s);
    DedupOfDistinct(Dedup(s));
  }

  /** `codex claude codex` becomes `codex claude`. */
  lemma DedupScenario()
    ensures Dedup([SetupCodex, SetupClaude, SetupCodex]) == [SetupCodex, SetupClaude]
  {
    DedupSnoc([SetupCodex], SetupClaude);
    DedupSnoc([SetupCodex, SetupClaude], SetupCodex);
    assert [SetupCodex, SetupClaude] + [SetupCodex] == [SetupCodex, SetupClaude, SetupCodex];
    assert [SetupCodex] + [SetupClaude] == [SetupCodex, SetupClaude];
  }
}

=== FILE: event.dfy ===
/**
 * Normalisation of the payload an agent hands to `ingest` into one event
 * record, and the default announcement spoken for it.
 *
 * Each agent has its own recogniser; a payload that is not a JSON object,
 * or whose kind is not a completion the agent reports, yields no event.
 */
module Event {
  import opened Wrappers
  import opened Text
  import opened Json
  import opened Agents

  datatype NormalizedEvent = NormalizedEvent(
    agent: Agent,
    eventKind: string,
    cwd: Option<string>,
    projectName: string,
    rawPayload: Json)

  const UnknownProject: string := "unknown project"
  const TaskEnd: string := "task-end"
  const PlanEnd: string := "plan-end"
  const ExitPlanMode: string := "ExitPlanMode"

  /** The keys the generic recogniser tries, in order, for the event kind. */
  const GenericKindKeys: seq<string> := ["event_kind", "event-kind", "type", "kind", "event"]

  /** The words that make a generic event kind a completion. */
  const TerminalWords: seq<string> := ["complete", "finish", "done", "stop"]

  // ---------------------------------------------------------------------------
  // Project names
  // ---------------------------------------------------------------------------

  /** A path component that `Path::file_name` reports: not empty, not `.` or `..`, no `/`. */
  predicate IsNormalName(name: string)
  {
    && name != [] && name != "." && name != ".."
    && forall i :: 0 <= i < |name| ==> name[i] != '/'
  }

  /**
   * `Path::file_name` on a Unix path: the last component when it is a normal
   * name. Empty and `.` components are skipped; a final `..`, a bare root
   * and an empty path have no file name.
   */
  function FileName(p: string): (r: Option<string>)
    ensures r.Some? ==> IsNormalName(r.value)
    ensures r.Some? ==> |r.value| <= |p|
    decreases |p|
  {
    var seg := LastSegment(p);
    if seg == [] || seg == "." then
      if |seg| < |p| then FileName(p[..|p| - |seg| - 1]) else None
    else if seg == ".." then None
    else Some(seg)
  }

  /** The path with its trailing slashes dropped, unless that leaves nothing. */
  function PathCandidate(c: string): (r: string)
    ensures StartsWith(c, r)
    ensures c != [] ==> r != []
  {
    var trimmed := TrimEndChar(c, '/');
    if trimmed == [] then c else trimmed
  }

  /** The file name of the candidate, or the candidate itself when it has none. */
  function NameOrPath(candidate: string): (r: string)
    ensures candidate != [] ==> r != []
    ensures IsNormalName(r) || r == candidate
  {
    match FileName(candidate)
    case Some(name) => name
    case None => candidate
  }

  /** `project_name_from_cwd`. */
  function ProjectNameFromCwd(cwd: Option<string>): (r: string)
    ensures |r| > 0
    ensures cwd.None? || IsBlank(cwd.value) ==> r == UnknownProject
    ensures cwd.Some? && !IsBlank(cwd.value) ==>
              IsNormalName(r) || StartsWith(Trim(cwd.value), r)
  {
    match cwd
    case None => UnknownProject
    case Some(raw) =>
      var c := Trim(raw);
      TrimEmptyIffBlank(raw);
      if c == [] then UnknownProject else NameOrPath(PathCandidate(c))
  }

  /** A non-blank directory is named by the file name of its trimmed path. */
  lemma ProjectNameOfPath(raw: string)
    requires Trim(raw) != []
    ensures ProjectNameFromCwd(Some(raw)) == NameOrPath(PathCandidate(Trim(raw)))
  {
  }

  /** `LastSegment` of `dir + "/" + name` is `name` when `name` holds no `/`. */
  lemma {:induction false} LastSegmentAfterSlash(dir: string, name: string)
    requires forall i :: 0 <= i < |name| ==> name[i] != '/'
    ensures LastSegment(dir + "/" + name) == name
    decreases |name|
  {
    var p := dir + "/" + name;
    if |name| > 0 {
      var init := name[..|name| - 1];
      assert p[..|p| - 1] == dir + "/" + init;
      LastSegmentAfterSlash(dir, init);
      assert init + [name[|name| - 1]] == name;
    }
  }

  /** A string without surrounding whitespace is its own trim. */
  lemma TrimNoop(s: string)
    requires |s| > 0 ==> !IsWhitespace(s[0]) && !IsWhitespace(s[|s| - 1])
    ensures Trim(s) == s
  {
  }

  /** The file name of `dir/name` for a normal `name` is `name`. */
  lemma FileNameOfChild(dir: string, name: string)
    requires IsNormalName(name)
    ensures FileName(dir + "/" + name) == Some(name)
  {
    LastSegmentAfterSlash(dir, name);
  }

  /**
   * The last directory of a path is the project name: for `dir/name`
   * with `name` a normal component, the result is `name`.
   */
  lemma ProjectNameIsLastComponent(dir: string, name: string)
    requires IsNormalName(name)
    requires Trim(dir + "/" + name) == dir + "/" + name
    ensures ProjectNameFromCwd(Some(dir + "/" + name)) == name
  {
    var p := dir + "/" + name;
    ProjectNameOfPath(p);
    assert p[|p| - 1] == name[|name| - 1] && p[|p| - 1] != '/';
    assert PathCandidate(p) == p;
    FileNameOfChild(dir, name);
  }

  /** Trailing slashes do not change the project name unless the path is all slashes. */
  lemma ProjectNameIgnoresTrailingSlash(s: string)
    requires |s| > 0 && !IsWhitespace(s[0]) && !IsWhitespace(s[|s| - 1])
    requires TrimEndChar(s, '/') != []
    ensures ProjectNameFromCwd(Some(s + "/")) == ProjectNameFromCwd(Some(s))
  {
    PathCandidateDropsSlash(s);
    SameCandidateSameName(s + "/", s);
  }

  /** Two directories with the same candidate path have the same project name. */
  lemma SameCandidateSameName(a: string, b: string)
    requires Trim(a) != [] && Trim(b) != []
    requires PathCandidate(Trim(a)) == PathCandidate(Trim(b))
    ensures ProjectNameFromCwd(Some(a)) == ProjectNameFromCwd(Some(b))
  {
    ProjectNameOfPath(a);
    ProjectNameOfPath(b);
  }

  lemma PathCandidateDropsSlash(s: string)
    requires TrimEndChar(s, '/') != []
    ensures PathCandidate(s + "/") == PathCandidate(s)
  {
    var t := s + "/";
    assert t[..|t| - 1] == s;
    assert TrimEndChar(t, '/') == TrimEndChar(s, '/');
  }

  /** A missing or blank directory gives the placeholder name. */
  lemma ProjectNameOfNothing(blank: string)
    requires IsBlank(blank)
    ensures ProjectNameFromCwd(None) == UnknownProject
    ensures ProjectNameFromCwd(Some(blank)) == UnknownProject
  {
  }

  /** The root directory has no file name, so the name is the path itself. */
  lemma ProjectNameOfRoot()
    ensures ProjectNameFromCwd(Some("/")) == "/"
  {
    assert Trim("/") == "/" by {
      TrimNoop("/");
    }
    assert PathCandidate("/") == "/" by {
      assert TrimEndChar("/", '/') == [];
    }
    assert FileName("/") == None by {
      assert LastSegment("/") == [];
      assert "/"[..0] == [];
      assert FileName([]) == None;
    }
    ProjectNameOfPath("/");
  }

  /** A normal name is its own project name. */
  lemma ProjectNameOfName(name: string)
    requires IsNormalName(name)
    requires Trim(name) == name
    ensures ProjectNameFromCwd(Some(name)) == name
  {
    ProjectNameOfPath(name);
    assert PathCandidate(name) == name by {
      assert name[|name| - 1] != '/';
    }
    LastSegmentWhole(name);
    assert FileName(name) == Some(name);
  }

  /** A string without `/` is its own last segment. */
  lemma {:induction false} LastSegmentWhole(s: string)
    requires forall i :: 0 <= i < |s| ==> s[i] != '/'
    ensures LastSegment(s) == s
    decreases |s|
  {
    if |s| > 0 {
      LastSegmentWhole(s[..|s| - 1]);
      assert s[..|s| - 1] + [s[|s| - 1]] == s;
    }
  }

  // ---------------------------------------------------------------------------
  // Recognisers
  // ---------------------------------------------------------------------------

  /** `is_exit_plan_mode_request`: `tool_name`, `tool` or `query` names ExitPlanMode. */
  predicate IsExitPlanModeRequest(payload: Json)
  {
    || GetStr(payload, "tool_name") == Some(ExitPlanMode)
    || GetStr(payload, "tool") == Some(ExitPlanMode)
    || GetStr(payload, "query") == Some(ExitPlanMode)
  }

  /** `claude_event_kind`. */
  function ClaudeEventKind(payload: Json): (r: Option<string>)
    ensures r.Some? ==> r.value == TaskEnd || r.value == PlanEnd
  {
    match GetStr(payload, "hook_event_name")
    case None => None
    case Some(hook) =>
      if hook == "Stop" then Some(TaskEnd)
      else if hook == "SubagentStop" then Some(PlanEnd)
      else if hook == "PermissionRequest" && IsExitPlanModeRequest(payload) then Some(PlanEnd)
      else None
  }

  /** `codex_event_kind`: exact matches only. */
  function CodexEventKind(kind: string): (r: Option<string>)
    ensures r.Some? ==> r.value == TaskEnd || r.value == PlanEnd
  {
    if kind == "agent-turn-complete" then Some(TaskEnd)
    else if kind == "agent-plan-complete" then Some(PlanEnd)
    else None
  }

  /** `is_terminal_event`: the ASCII-lower-cased kind contains one of the terminal words. */
  predicate IsTerminalEvent(kind: string)
  {
    var lowered := AsciiLower(kind);
    || Contains(lowered, "complete")
    || Contains(lowered, "finish")
    || Contains(lowered, "done")
    || Contains(lowered, "stop")
  }

  /** The value of the first key in `keys` that the object has. */
  function FirstPresent(payload: Json, keys: seq<string>): (r: Option<Json>)
    ensures r.Some? <==> exists i :: 0 <= i < |keys| && Get(payload, keys[i]).Some?
    ensures r.Some? ==> exists i :: 0 <= i < |keys| && Get(payload, keys[i]) == r
                          && forall j :: 0 <= j < i ==> Get(payload, keys[j]).None?
  {
    if |keys| == 0 then None
    else match Get(payload, keys[0])
      case Some(v) => Some(v)
      case None =>
        var r := FirstPresent(payload, keys[1..]);
        assert forall i :: 1 <= i < |keys| ==> keys[i] == keys[1..][i - 1];
        if r.Some? then
          var i :| 0 <= i < |keys[1..]| && Get(payload, keys[1..][i]) == r
                   && forall j :: 0 <= j < i ==> Get(payload, keys[1..][j]).None?;
          assert Get(payload, keys[i + 1]) == r;
          r
        else
          r
  }

  /** The generic event kind: the first present kind key, which must hold a string. */
  function GenericEventKind(payload: Json): Option<string>
  {
    match FirstPresent(payload, GenericKindKeys)
    case Some(Str(kind)) => Some(kind)
    case _ => None
  }

  /** The generic project name: from `cwd` when it is a string, else `project`, else the placeholder. */
  function GenericProjectName(payload: Json): string
  {
    match GetStr(payload, "cwd")
    case Some(path) => ProjectNameFromCwd(Some(path))
    case None => GetStr(payload, "project").GetOr(UnknownProject)
  }

  /** Claude: an event exactly for an object whose hook name maps to a kind. */
  function NormalizeClaude(payload: Json): (r: Option<NormalizedEvent>)
    ensures r.Some? <==> payload.Obj? && ClaudeEventKind(payload).Some?
    ensures r.Some? ==> && r.value.agent == Claude && r.value.rawPayload == payload
                        && r.value.eventKind == ClaudeEventKind(payload).value
                        && r.value.cwd == GetStr(payload, "cwd")
                        && r.value.projectName == ProjectNameFromCwd(GetStr(payload, "cwd"))
  {
    if !payload.Obj? then None
    else match ClaudeEventKind(payload)
      case None => None
      case Some(kind) =>
        var cwd := GetStr(payload, "cwd");
        Some(NormalizedEvent(Claude, kind, cwd, ProjectNameFromCwd(cwd), payload))
  }

  /** Codex: an event exactly for an object whose string `type` maps to a kind. */
  function NormalizeCodex(payload: Json): (r: Option<NormalizedEvent>)
    ensures r.Some? <==> && payload.Obj? && GetStr(payload, "type").Some?
                         && CodexEventKind(GetStr(payload, "type").value).Some?
    ensures r.Some? ==> && r.value.agent == Codex && r.value.rawPayload == payload
                        && r.value.eventKind == CodexEventKind(GetStr(payload, "type").value).value
                        && r.value.cwd == GetStr(payload, "cwd")
                        && r.value.projectName == ProjectNameFromCwd(GetStr(payload, "cwd"))
  {
    if !payload.Obj? then None
    else match GetStr(payload, "type")
      case None => None
      case Some(kind) =>
        match CodexEventKind(kind)
        case None => None
        case Some(eventKind) =>
          var cwd := GetStr(payload, "cwd");
          Some(NormalizedEvent(Codex, eventKind, cwd, ProjectNameFromCwd(cwd), payload))
  }

  /** Generic: an event exactly for an object whose kind is present, a string, and terminal. */
  function NormalizeGeneric(payload: Json): (r: Option<NormalizedEvent>)
    ensures r.Some? <==> && payload.Obj? && GenericEventKind(payload).Some?
                         && IsTerminalEvent(GenericEventKind(payload).value)
    ensures r.Some? ==> && r.value.agent == Generic && r.value.rawPayload == payload
                        && r.value.eventKind == GenericEventKind(payload).value
                        && r.value.cwd == GetStr(payload, "cwd")
                        && r.value.projectName == GenericProjectName(payload)
  {
    if !payload.Obj? then None
    else match GenericEventKind(payload)
      case None => None
      case Some(kind) =>
        if !IsTerminalEvent(kind) then None
        else Some(NormalizedEvent(Generic, kind, GetStr(payload, "cwd"), GenericProjectName(payload), payload))
  }

  /** `normalize`: dispatch on the agent named on the command line. */
  function Normalize(agent: Agent, payload: Json): (r: Option<NormalizedEvent>)
    ensures agent == Claude ==> (r.Some? <==> payload.Obj? && ClaudeEventKind(payload).Some?)
    ensures agent == Codex ==>
              (r.Some? <==> && payload.Obj? && GetStr(payload, "type").Some?
                            && CodexEventKind(GetStr(payload, "type").value).Some?)
    ensures agent == Generic ==>
              (r.Some? <==> && payload.Obj? && GenericEventKind(payload).Some?
                            && IsTerminalEvent(GenericEventKind(payload).value))
    ensures r.Some? && agent == Generic ==> r.value.projectName == GenericProjectName(payload)
    ensures r.Some? ==> payload.Obj?
    ensures r.Some? ==> r.value.agent == agent && r.value.rawPayload == payload
    ensures r.Some? ==> r.value.cwd == GetStr(payload, "cwd")
    ensures r.Some? ==> |r.value.eventKind| > 0
    ensures r.Some? && agent != Generic ==> r.value.projectName == ProjectNameFromCwd(r.value.cwd)
    ensures r.Some? && agent != Generic ==> r.value.eventKind in {TaskEnd, PlanEnd}
  {
    match agent
    case Claude => NormalizeClaude(payload)
    case Codex => NormalizeCodex(payload)
    case Generic =>
      var r := NormalizeGeneric(payload);
      if r.Some? then TerminalIsNonEmpty(r.value.eventKind); r else r
  }

  /** The keys whose string value `ExitPlanMode` marks a plan-completion permission request. */
  const ExitPlanModeKeys: seq<string> := ["tool_name", "tool", "query"]

  /** A request leaves plan mode exactly when one of its three tool keys holds the string `ExitPlanMode`. */
  lemma ExitPlanModeRequestIff(payload: Json)
    ensures IsExitPlanModeRequest(payload) <==>
              && payload.Obj?
              && exists k :: k in ExitPlanModeKeys && k in payload.fields && payload.fields[k] == Str(ExitPlanMode)
  {
    if payload.Obj? && exists k :: k in ExitPlanModeKeys && k in payload.fields && payload.fields[k] == Str(ExitPlanMode) {
      var k :| k in ExitPlanModeKeys && k in payload.fields && payload.fields[k] == Str(ExitPlanMode);
      assert k == "tool_name" || k == "tool" || k == "query";
    }
    if IsExitPlanModeRequest(payload) {
      if GetStr(payload, "tool_name") == Some(ExitPlanMode) {
        assert "tool_name" == ExitPlanModeKeys[0];
      } else if GetStr(payload, "tool") == Some(ExitPlanMode) {
        assert "tool" == ExitPlanModeKeys[1];
      } else {
        assert "query" == ExitPlanModeKeys[2];
      }
    }
  }

  /**
   * Terminality, positionally: a kind is terminal exactly when one of the
   * terminal words occurs somewhere in its ASCII-lower-cased form.
   */
  lemma TerminalIffWordAt(kind: string)
    ensures IsTerminalEvent(kind) <==>
              exists w, i :: 0 <= w < |TerminalWords| && OccursAt(AsciiLower(kind), TerminalWords[w], i)
  {
    var lowered := AsciiLower(kind);
    ContainsIffOccurs(lowered, "complete");
    ContainsIffOccurs(lowered, "finish");
    ContainsIffOccurs(lowered, "done");
    ContainsIffOccurs(lowered, "stop");
    if exists w, i :: 0 <= w < |TerminalWords| && OccursAt(lowered, TerminalWords[w], i) {
      var w, i :| 0 <= w < |TerminalWords| && OccursAt(lowered, TerminalWords[w], i);
      assert w == 0 || w == 1 || w == 2 || w == 3;
    }
    if Contains(lowered, "complete") {
      var i :| OccursAt(lowered, "complete", i);
      assert OccursAt(lowered, TerminalWords[0], i);
    } else if Contains(lowered, "finish") {
      var i :| OccursAt(lowered, "finish", i);
      assert OccursAt(lowered, TerminalWords[1], i);
    } else if Contains(lowered, "done") {
      var i :| OccursAt(lowered, "done", i);
      assert OccursAt(lowered, TerminalWords[2], i);
    } else if Contains(lowered, "stop") {
      var i :| OccursAt(lowered, "stop", i);
      assert OccursAt(lowered, TerminalWords[3], i);
    }
  }

  /** A terminal kind is never empty. */
  lemma TerminalIsNonEmpty(kind: string)
    requires IsTerminalEvent(kind)
    ensures |kind| > 0
  {
    var lowered := AsciiLower(kind);
    if Contains(lowered, "complete") { ContainsNeedsLength(lowered, "complete"); }
    else if Contains(lowered, "finish") { ContainsNeedsLength(lowered, "finish"); }
    else if Contains(lowered, "done") { ContainsNeedsLength(lowered, "done"); }
    else { ContainsNeedsLength(lowered, "stop"); }
  }

  // ---------------------------------------------------------------------------
  // Properties of the recognisers
  // ---------------------------------------------------------------------------

  /** Claude: the hook names that produce each kind, both directions. */
  lemma ClaudeKindTable(payload: Json)
    ensures ClaudeEventKind(payload) == Some(TaskEnd) <==> GetStr(payload, "hook_event_name") == Some("Stop")
    ensures ClaudeEventKind(payload) == Some(PlanEnd) <==>
              || GetStr(payload, "hook_event_name") == Some("SubagentStop")
              || (GetStr(payload, "hook_event_name") == Some("PermissionRequest") && IsExitPlanModeRequest(payload))
  {
  }

  /** Codex: only the two exact completion types are events. */
  lemma CodexKindTable(kind: string)
    ensures CodexEventKind(kind) == Some(TaskEnd) <==> kind == "agent-turn-complete"
    ensures CodexEventKind(kind) == Some(PlanEnd) <==> kind == "agent-plan-complete"
    ensures CodexEventKind(kind).None? <==> kind != "agent-turn-complete" && kind != "agent-plan-complete"
  {
  }

  /** Anything other than a JSON object yields no event, whatever the agent. */
  lemma NonObjectIgnored(agent: Agent, payload: Json)
    requires !payload.Obj?
    ensures Normalize(agent, payload).None?
  {
  }

  /** `AsciiLower` distributes over concatenation. */
  lemma AsciiLowerConcat(a: string, b: string)
    ensures AsciiLower(a + b) == AsciiLower(a) + AsciiLower(b)
  {
  }

  /**
   * Any kind with a terminal word inside it, in any ASCII case, is terminal:
   * `Task-COMPLETE`, `finished`, `stopped`.
   */
  lemma TerminalByInfix(a: string, word: string, c: string)
    requires AsciiLower(word) in TerminalWords
    ensures IsTerminalEvent(a + word + c)
  {
    AsciiLowerConcat(a + word, c);
    AsciiLowerConcat(a, word);
    ContainsInfix(AsciiLower(a), AsciiLower(word), AsciiLower(c));
  }

  /** Terminality ignores ASCII case. */
  lemma TerminalIgnoresCase(kind: string)
    ensures IsTerminalEvent(kind) <==> IsTerminalEvent(AsciiLower(kind))
  {
    AsciiLowerIdempotent(kind);
  }

  /**
   * The generic kind comes from the first kind key present; when that key
   * holds a non-string, the later keys are not consulted.
   */
  lemma GenericKindNoFallThrough(fields: map<string, Json>, later: string)
    requires "event_kind" in fields && !fields["event_kind"].Str?
    requires "type" in fields && fields["type"] == Str(later)
    ensures NormalizeGeneric(Obj(fields)).None?
  {
    assert Get(Obj(fields), GenericKindKeys[0]).Some?;
  }

  /** The generic kind: a string under `event_kind` is used even when `type` is also present. */
  lemma GenericKindPrefersEarlierKey(fields: map<string, Json>, kind: string)
    requires "event_kind" in fields && fields["event_kind"] == Str(kind)
    ensures GenericEventKind(Obj(fields)) == Some(kind)
  {
  }

  /** Generic: a string `cwd` decides the project name, as for the other agents. */
  lemma GenericProjectFromCwd(payload: Json)
    ensures NormalizeGeneric(payload).Some? && GetStr(payload, "cwd").Some? ==>
              NormalizeGeneric(payload).value.projectName == ProjectNameFromCwd(GetStr(payload, "cwd"))
  {
  }

  /**
   * Generic: without a string `cwd`, a string `project` is used verbatim,
   * and "unknown project" only when there is no string `project` either.
   */
  lemma GenericProjectVerbatim(payload: Json)
    ensures NormalizeGeneric(payload).Some? && GetStr(payload, "cwd").None? ==>
              && (GetStr(payload, "project").Some? ==>
                    NormalizeGeneric(payload).value.projectName == GetStr(payload, "project").value)
              && (GetStr(payload, "project").None? ==>
                    NormalizeGeneric(payload).value.projectName == UnknownProject)
  {
  }

  /** A generic completion with `"project": ""` and no `cwd` gets an empty project name. */
  lemma GenericEmptyProjectScenario()
    ensures var payload := Obj(map["event_kind" := Str("done"), "project" := Str("")]);
            NormalizeGeneric(payload).Some? && NormalizeGeneric(payload).value.projectName == ""
  {
    var payload := Obj(map["event_kind" := Str("done"), "project" := Str("")]);
    assert "" + "done" + "" == "done";
    assert AsciiLower("done") == "done" by {
      assert forall i :: 0 <= i < 4 ==> AsciiLower("done")[i] == "done"[i];
    }
    assert "done" == TerminalWords[2];
    TerminalByInfix("", "done", "");
    assert GenericEventKind(payload) == Some("done") by {
      assert Get(payload, GenericKindKeys[0]) == Some(Str("done"));
    }
    assert GetStr(payload, "cwd").None?;
    assert GetStr(payload, "project") == Some("");
  }

  /** The Claude Stop payload from the unit tests normalises to a task end in `agitiser`. */
  lemma ClaudeStopScenario()
    ensures var cwd := "/home/notes/Projects/agitiser";
            var payload := Obj(map["session_id" := Str("abc"), "hook_event_name" := Str("Stop"), "cwd" := Str(cwd)]);
            Normalize(Claude, payload) == Some(NormalizedEvent(Claude, TaskEnd, Some(cwd), "agitiser", payload))
  {
    var cwd := "/home/notes/Projects/agitiser";
    var payload := Obj(map["session_id" := Str("abc"), "hook_event_name" := Str("Stop"), "cwd" := Str(cwd)]);
    assert GetStr(payload, "hook_event_name") == Some("Stop");
    assert GetStr(payload, "cwd") == Some(cwd);
    ScenarioProjectName();
  }

  lemma ScenarioProjectName()
    ensures ProjectNameFromCwd(Some("/home/notes/Projects/agitiser")) == "agitiser"
  {
    var cwd := "/home/notes/Projects/agitiser";
    var dir, name := "/home/notes/Projects", "agitiser";
    assert cwd == dir + "/" + name;
    assert IsNormalName(name);
    assert !IsWhitespace(cwd[0]) && !IsWhitespace(cwd[|cwd| - 1]);
    TrimNoop(cwd);
    ProjectNameIsLastComponent(dir, name);
  }

  // ---------------------------------------------------------------------------
  // Announcement
  // ---------------------------------------------------------------------------

  const FinishedA: string := " finished a "
  const In: string := " in "

  /** `announcement_message`: "<agent> finished a <kind> in <project>". */
  function AnnouncementMessage(event: NormalizedEvent): (r: string)
    ensures StartsWith(r, event.agent.DisplayName() + FinishedA)
    ensures |r| == |event.agent.DisplayName()| + |FinishedA| + |event.eventKind| + |In| + |event.projectName|
    ensures r[|r| - |event.projectName| - |In|..] == In + event.projectName
    ensures r[|event.agent.DisplayName()| + |FinishedA|..|r| - |event.projectName| - |In|] == event.eventKind
  {
    var name := event.agent.DisplayName();
    var r := name + FinishedA + event.eventKind + In + event.projectName;
    assert r == (name + FinishedA) + event.eventKind + (In + event.projectName);
    r
  }

  /** The message names the project at its end, so it is never empty. */
  lemma AnnouncementNamesAgentAndProject(event: NormalizedEvent)
    ensures |AnnouncementMessage(event)| > |event.projectName|
    ensures event.agent == Generic ==> StartsWith(AnnouncementMessage(event), "Agent finished a ")
  {
  }
}

=== FILE: json.dfy ===
/**
 * A serde_json `Value` tree and the safe accessors the modelled code uses:
 * each answers "absent" instead of failing when the shape is wrong.
 */
module Json {
  import opened Wrappers

  /** Numbers are integers here; floating-point JSON numbers are not modelled. */
  datatype Json =
    | Null
    | Bool(b: bool)
    | Num(n: int)
    | Str(s: string)
    | Arr(items: seq<Json>)
    | Obj(fields: map<string, Json>)

  /** `Value::get(key)`: the member of an object, absent for every other value. */
  function Get(v: Json, key: string): (r: Option<Json>)
    ensures r.Some? <==> v.Obj? && key in v.fields
    ensures r.Some? ==> r.value == v.fields[key]
  {
    if v.Obj? && key in v.fields then Some(v.fields[key]) else None
  }

  /** The member under `key` when it is a string; absent otherwise. */
  function GetStr(v: Json, key: string): (r: Option<string>)
    ensures r.Some? <==> Get(v, key).Some? && Get(v, key).value.Str?
    ensures r.Some? ==> Get(v, key).value == Str(r.value)
  {
    match Get(v, key)
    case Some(Str(s)) => Some(s)
    case _ => None
  }

  /** The member under `key` when it is an array; absent otherwise. */
  function GetArr(v: Json, key: string): (r: Option<seq<Json>>)
    ensures r.Some? <==> Get(v, key).Some? && Get(v, key).value.Arr?
    ensures r.Some? ==> Get(v, key).value == Arr(r.value)
  {
    match Get(v, key)
    case Some(Arr(a)) => Some(a)
    case _ => None
  }
}

=== FILE: state.dfy ===
/**
 * The local state record: the `notify` value captured from the Codex
 * configuration, the user's announcement templates, and the event-kind
 * labels (declared, but read by none of the modelled operations).
 */
module State {
  import opened Wrappers

  datatype CodexState = CodexState(previousNotify: Option<seq<string>>)

  datatype AgentTemplateConfig = AgentTemplateConfig(
    claude: Option<string>,
    codex: Option<string>,
    generic: Option<string>)

  datatype TemplateConfig = TemplateConfig(global: Option<string>, agents: AgentTemplateConfig)

  datatype AgentEventKindLabelsConfig = AgentEventKindLabelsConfig(
    claude: map<string, string>,
    codex: map<string, string>,
    generic: map<string, string>)

  datatype EventKindLabelsConfig = EventKindLabelsConfig(
    global: map<string, string>,
    agents: AgentEventKindLabelsConfig)

  datatype LocalState = LocalState(
    codex: CodexState,
    templates: TemplateConfig,
    eventKindLabels: EventKindLabelsConfig)

  /** `LocalState::default()`: nothing captured, nothing configured. */
  const DefaultState: LocalState :=
    LocalState(
      CodexState(None),
      TemplateConfig(None, AgentTemplateConfig(None, None, None)),
      EventKindLabelsConfig(map[], AgentEventKindLabelsConfig(map[], map[], map[])))
}

=== FILE: template.dfy ===
/**
 * Announcement templates: the user's per-agent or global Handlebars
 * template is rendered against the event, and the default sentence is
 * spoken whenever there is no template, it does not compile, rendering
 * fails or the rendered text is blank.
 *
 * The Handlebars engine itself is a parameter: `register` says whether a
 * template string compiles, `render` gives the output (or a render error)
 * for a compiled template and a context.
 */
module Template {
  import opened Wrappers
  import opened Text
  import opened Agents
  import opened State
  import opened Event

  /** The values a template can refer to: `agent`, `event_kind`, `project`, `cwd`. */
  datatype Context = Context(agent: string, eventKind: string, project: string, cwd: string)

  /** A Handlebars instance in non-strict mode, abstracted to its two outcomes. */
  datatype Engine = Engine(register: string -> bool, render: (string, Context) -> Option<string>)

  /** The outcome of `validate_template`. */
  datatype Outcome = Ok | Err(message: string)

  const InvalidTemplateSyntax: string := "invalid template syntax"

  /** `agent_template`: the override configured for this agent, if any. */
  function AgentTemplate(templates: TemplateConfig, agent: Agent): Option<string>
  {
    match agent
    case Claude => templates.agents.claude
    case Codex => templates.agents.codex
    case Generic => templates.agents.generic
  }

  /** The configuration with the override for `agent` set to `value`. */
  function WithAgentTemplate(templates: TemplateConfig, agent: Agent, value: Option<string>): TemplateConfig
  {
    var a := templates.agents;
    match agent
    case Claude => templates.(agents := a.(claude := value))
    case Codex => templates.(agents := a.(codex := value))
    case Generic => templates.(agents := a.(generic := value))
  }

  /**
   * Each agent reads its own override slot: it sees the value written for
   * it, and a write for another agent or the global template leaves it alone.
   */
  lemma AgentTemplateOwnSlot(templates: TemplateConfig, agent: Agent, value: Option<string>)
    ensures AgentTemplate(WithAgentTemplate(templates, agent, value), agent) == value
    ensures forall other :: other != agent ==>
              AgentTemplate(WithAgentTemplate(templates, agent, value), other) == AgentTemplate(templates, other)
    ensures forall g :: AgentTemplate(templates.(global := g), agent) == AgentTemplate(templates, agent)
  {
  }

  /** `normalize_template`: a blank template counts as no template. */
  function NormalizeTemplate(value: Option<string>): (r: Option<string>)
    ensures r.Some? <==> value.Some? && !IsBlank(value.value)
    ensures r.Some? ==> r == value
  {
    match value
    case Some(candidate) =>
      TrimEmptyIffBlank(candidate);
      if Trim(candidate) == [] then None else value
    case None => None
  }

  /** `resolve_template`: the agent's own non-blank template, else the global one. */
  function ResolveTemplate(templates: TemplateConfig, agent: Agent): (r: Option<string>)
    ensures r.Some? ==> !IsBlank(r.value)
    ensures r.Some? ==> r == AgentTemplate(templates, agent) || r == templates.global
  {
    NormalizeTemplate(AgentTemplate(templates, agent)).OrElse(NormalizeTemplate(templates.global))
  }

  /** `context_from_event`: the announcement fields, with an empty `cwd` when there is none. */
  function ContextFromEvent(event: NormalizedEvent): (r: Context)
    ensures r.agent == event.agent.DisplayName()
    ensures r.eventKind == event.eventKind && r.project == event.projectName
    ensures event.cwd.Some? ==> r.cwd == event.cwd.value
    ensures event.cwd.None? ==> r.cwd == []
  {
    Context(event.agent.DisplayName(), event.eventKind, event.projectName, event.cwd.GetOr([]))
  }

  /** `render_template`: nothing when the template does not compile, fails to render or renders blank. */
  function RenderTemplate(engine: Engine, template: string, event: NormalizedEvent): (r: Option<string>)
    ensures r.Some? <==>
              && engine.register(template)
              && engine.render(template, ContextFromEvent(event)).Some?
              && !IsBlank(engine.render(template, ContextFromEvent(event)).value)
    ensures r.Some? ==> r == engine.render(template, ContextFromEvent(event))
  {
    if !engine.register(template) then None
    else
      match engine.render(template, ContextFromEvent(event))
      case None => None
      case Some(rendered) =>
        TrimEmptyIffBlank(rendered);
        if Trim(rendered) == [] then None else Some(rendered)
  }

  /** `validate_template`: a template is accepted exactly when it compiles. */
  function ValidateTemplate(engine: Engine, template: string): (r: Outcome)
    ensures r.Ok? <==> engine.register(template)
    ensures r.Err? ==> r.message == InvalidTemplateSyntax
  {
    if engine.register(template) then Ok else Err(InvalidTemplateSyntax)
  }

  /** `render_announcement_message`: the rendered template, or the default sentence. */
  function RenderAnnouncementMessage(engine: Engine, event: NormalizedEvent, templates: TemplateConfig): (r: string)
    ensures !IsBlank(r)
    ensures r == AnnouncementMessage(event)
            || (&& ResolveTemplate(templates, event.agent).Some?
                && engine.render(ResolveTemplate(templates, event.agent).value, ContextFromEvent(event)) == Some(r))
  {
    var fallback := AnnouncementMessage(event);
    FallbackNotBlank(event);
    var template := ResolveTemplate(templates, event.agent).GetOr([]);
    if template == [] then fallback
    else RenderTemplate(engine, template, event).GetOr(fallback)
  }

  /** The default sentence starts with the agent's name, so it is never blank. */
  lemma FallbackNotBlank(event: NormalizedEvent)
    ensures !IsBlank(AnnouncementMessage(event))
  {
    var m := AnnouncementMessage(event);
    assert m[0] == event.agent.DisplayName()[0];
    NotBlankWitness(m, 0);
  }

  // ---------------------------------------------------------------------------
  // Properties
  // ---------------------------------------------------------------------------

  /**
   * Precedence: a non-blank agent template wins; otherwise a non-blank
   * global template; otherwise there is none.
   */
  lemma ResolvePrecedence(templates: TemplateConfig, agent: Agent)
    ensures var own := AgentTemplate(templates, agent);
            && (own.Some? && !IsBlank(own.value) ==> ResolveTemplate(templates, agent) == own)
            && (own.None? || IsBlank(own.value) ==>
                  ResolveTemplate(templates, agent) == NormalizeTemplate(templates.global))
    ensures ResolveTemplate(templates, agent).None? <==>
              && (AgentTemplate(templates, agent).None? || IsBlank(AgentTemplate(templates, agent).value))
              && (templates.global.None? || IsBlank(templates.global.value))
  {
  }

  /** The configuration from the unit tests: Codex gets its override, Claude the global template. */
  lemma ResolveScenario()
    ensures var templates := TemplateConfig(Some("global"), AgentTemplateConfig(None, Some("agent"), None));
            && ResolveTemplate(templates, Codex) == Some("agent")
            && ResolveTemplate(templates, Claude) == Some("global")
  {
    NotBlankWitness("agent", 0);
    NotBlankWitness("global", 0);
  }

  /** Without a usable template the default sentence is spoken. */
  lemma NoTemplateFallsBack(engine: Engine, event: NormalizedEvent, templates: TemplateConfig)
    requires ResolveTemplate(templates, event.agent).None?
    ensures RenderAnnouncementMessage(engine, event, templates) == AnnouncementMessage(event)
  {
  }

  /** A template that validation rejects is never rendered: the default sentence is spoken. */
  lemma InvalidTemplateFallsBack(engine: Engine, event: NormalizedEvent, templates: TemplateConfig)
    requires ResolveTemplate(templates, event.agent).Some?
    requires ValidateTemplate(engine, ResolveTemplate(templates, event.agent).value).Err?
    ensures RenderAnnouncementMessage(engine, event, templates) == AnnouncementMessage(event)
  {
  }

  /** A render error or a blank rendering also gives the default sentence. */
  lemma UnusableRenderingFallsBack(engine: Engine, event: NormalizedEvent, templates: TemplateConfig)
    requires ResolveTemplate(templates, event.agent).Some?
    requires var out := engine.render(ResolveTemplate(templates, event.agent).value, ContextFromEvent(event));
             out.None? || IsBlank(out.value)
    ensures RenderAnnouncementMessage(engine, event, templates) == AnnouncementMessage(event)
  {
  }

  /** A compiling template whose rendering is not blank is spoken exactly as rendered. */
  lemma RenderedTextIsSpoken(engine: Engine, event: NormalizedEvent, templates: TemplateConfig, text: string)
    requires ResolveTemplate(templates, event.agent).Some?
    requires ValidateTemplate(engine, ResolveTemplate(templates, event.agent).value).Ok?
    requires engine.render(ResolveTemplate(templates, event.agent).value, ContextFromEvent(event)) == Some(text)
    requires !IsBlank(text)
    ensures RenderAnnouncementMessage(engine, event, templates) == text
  {
  }
}

=== FILE: text.dfy ===
/**
 * String helpers shared by the model: Rust's notion of whitespace and
 * `str::trim`, substring search, ASCII lower-casing and the last
 * `/`-separated segment of a path.
 */
module Text {

  /** `char::is_whitespace`: the characters with the Unicode White_Space property. */
  predicate IsWhitespace(c: char)
  {
    || c == ' '
    || ('\t' <= c <= '\r')
    || c == '\U{0085}'
    || c == '\U{00A0}'
    || c == '\U{1680}'
    || ('\U{2000}' <= c <= '\U{200A}')
    || c == '\U{2028}'
    || c == '\U{2029}'
    || c == '\U{202F}'
    || c == '\U{205F}'
    || c == '\U{3000}'
  }

  /** Every character is whitespace (the empty string included). */
  predicate IsBlank(s: string)
  {
    forall i :: 0 <= i < |s| ==> IsWhitespace(s[i])
  }

  /** `str::trim_start`: the suffix left after dropping leading whitespace. */
  function TrimStart(s: string): (r: string)
    ensures |r| <= |s| && r == s[|s| - |r|..]
    ensures IsBlank(s[..|s| - |r|])
    ensures |r| > 0 ==> !IsWhitespace(r[0])
    decreases |s|
  {
    if |s| > 0 && IsWhitespace(s[0]) then
      var t := s[1..];
      var r := TrimStart(t);
      assert s[|s| - |r|..] == t[|t| - |r|..];
      assert s[..|s| - |r|] == [s[0]] + t[..|t| - |r|];
      BlankCons(s[0], t[..|t| - |r|]);
      r
    else
      s
  }

  /** A whitespace character in front of a blank string leaves it blank. */
  lemma BlankCons(c: char, t: string)
    requires IsWhitespace(c) && IsBlank(t)
    ensures IsBlank([c] + t)
  {
    var s := [c] + t;
    forall i | 0 < i < |s|
      ensures IsWhitespace(s[i])
    {
      assert s[i] == t[i - 1];
    }
  }

  /** `str::trim_end`: the prefix left after dropping trailing whitespace. */
  function TrimEnd(s: string): (r: string)
    ensures |r| <= |s| && r == s[..|r|]
    ensures IsBlank(s[|r|..])
    ensures |r| > 0 ==> !IsWhitespace(r[|r| - 1])
    decreases |s|
  {
    if |s| > 0 && IsWhitespace(s[|s| - 1]) then
      var r := TrimEnd(s[..|s| - 1]);
      assert s[|r|..] == s[..|s| - 1][|r|..] + [s[|s| - 1]];
      r
    else
      s
  }

  /** `str::trim`. */
  function Trim(s: string): string
  {
    TrimEnd(TrimStart(s))
  }

  /** `s.trim().is_empty()` holds exactly for the blank strings. */
  lemma TrimEmptyIffBlank(s: string)
    ensures Trim(s) == [] <==> IsBlank(s)
  {
  }

  /** A string with a non-whitespace character is not blank. */
  lemma NotBlankWitness(s: string, i: nat)
    requires i < |s| && !IsWhitespace(s[i])
    ensures !IsBlank(s)
  {
  }

  predicate StartsWith(s: string, prefix: string)
  {
    |prefix| <= |s| && s[..|prefix|] == prefix
  }

  /** `str::contains` for a string pattern: `sub` occurs somewhere in `s`. */
  predicate Contains(s: string, sub: string)
    decreases |s|
  {
    StartsWith(s, sub) || (|s| > 0 && Contains(s[1..], sub))
  }

  /** Whatever surrounds `sub`, the whole contains it. */
  lemma {:induction false} ContainsInfix(a: string, sub: string, c: string)
    ensures Contains(a + sub + c, sub)
    decreases |a|
  {
    if |a| == 0 {
      assert a + sub + c == sub + c;
      assert (sub + c)[..|sub|] == sub;
    } else {
      ContainsInfix(a[1..], sub, c);
      assert (a + sub + c)[1..] == a[1..] + sub + c;
    }
  }

  /** `sub` occurs in `s` starting at position `i`. */
  predicate OccursAt(s: string, sub: string, i: int)
  {
    0 <= i && i + |sub| <= |s| && s[i..i + |sub|] == sub
  }

  /** `Contains` agrees with the positional reading: `sub` occurs at some index of `s`. */
  lemma {:induction false} ContainsIffOccurs(s: string, sub: string)
    ensures Contains(s, sub) <==> exists i :: OccursAt(s, sub, i)
    decreases |s|
  {
    if |s| > 0 {
      ContainsIffOccurs(s[1..], sub);
      if Contains(s[1..], sub) {
        var i :| OccursAt(s[1..], sub, i);
        assert s[i + 1..i + 1 + |sub|] == s[1..][i..i + |sub|];
        assert OccursAt(s, sub, i + 1);
      }
      if exists i :: OccursAt(s, sub, i) {
        var i :| OccursAt(s, sub, i);
        if i > 0 {
          assert s[1..][i - 1..i - 1 + |sub|] == s[i..i + |sub|];
          assert OccursAt(s[1..], sub, i - 1);
        }
      }
    }
    if StartsWith(s, sub) {
      assert OccursAt(s, sub, 0);
    }
  }

  /** A string shorter than the pattern cannot contain it. */
  lemma {:induction false} ContainsNeedsLength(s: string, sub: string)
    requires Contains(s, sub)
    ensures |sub| <= |s|
    decreases |s|
  {
    if !StartsWith(s, sub) {
      ContainsNeedsLength(s[1..], sub);
    }
  }

  /** `char::to_ascii_lowercase`. */
  function AsciiLowerChar(c: char): char
  {
    if 'A' <= c <= 'Z' then (c as int - 'A' as int + 'a' as int) as char else c
  }

  /** `str::to_ascii_lowercase`: non-ASCII characters are left alone. */
  function AsciiLower(s: string): (r: string)
    ensures |r| == |s|
    ensures forall i :: 0 <= i < |s| ==> r[i] == AsciiLowerChar(s[i])
  {
    seq(|s|, i requires 0 <= i < |s| => AsciiLowerChar(s[i]))
  }

  /** Lower-casing twice is lower-casing once. */
  lemma AsciiLowerIdempotent(s: string)
    ensures AsciiLower(AsciiLower(s)) == AsciiLower(s)
  {
  }

  /** `str::trim_end_matches(c)` for one character. */
  function TrimEndChar(s: string, c: char): (r: string)
    ensures |r| <= |s| && r == s[..|r|]
    ensures forall i :: |r| <= i < |s| ==> s[i] == c
    ensures |r| > 0 ==> r[|r| - 1] != c
    decreases |s|
  {
    if |s| > 0 && s[|s| - 1] == c then TrimEndChar(s[..|s| - 1], c) else s
  }

  /** The text after the last `/` of `s` (all of `s` when it has none). */
  function LastSegment(s: string): (r: string)
    ensures |r| <= |s| && r == s[|s| - |r|..]
    ensures forall i :: 0 <= i < |r| ==> r[i] != '/'
    ensures |r| < |s| ==> s[|s| - |r| - 1] == '/'
    decreases |s|
  {
    if |s| == 0 || s[|s| - 1] == '/' then
      []
    else
      var init := s[..|s| - 1];
      var r := LastSegment(init);
      var k := |init| - |r|;
      assert init[k..] + [s[|s| - 1]] == s[k..];
      r + [s[|s| - 1]]
  }
}

=== FILE: wrappers.dfy ===
/** Rust's `Option`, with the two combinators the modelled code uses. */
module Wrappers {

  datatype Option<+T> = None | Some(value: T) {

    /** `Option::unwrap_or`: the carried value, or `default` when there is none. */
    function GetOr(default: T): T
    {
      match this
      case Some(v) => v
      case None => default
    }

    /** `Option::or_else`: this value when present, otherwise `other`. */
    function OrElse(other: Option<T>): Option<T>
    {
      match this
      case Some(_) => this
      case None => other
    }
  }
}
